=== FILE: README.md ===
# wolog3 core, modelled in Dafny

wolog3 is a blog engine. It keeps Markdown posts as pandoc document trees in a Postgres table
and serves them after several tree passes. This project models three of its pure cores.

- **Sync.** The incremental sync (`update_posts`):
  - it picks the Markdown files and derives each one's logical path (its key);
  - it decides which files are stale and which stored keys to delete;
  - it builds each stale file (convert, link pass, dynamic pass, metadata, draft check);
  - it applies the outcomes to the store, and it sends the outgoing mention notifications.
- **Search.** The post search (`search`):
  - the store-side filter and `LIMIT`, then the program-side filters, then a stable sort;
  - the query-string encoding of a search, and the form decoding that reads it back;
  - the feed's limit override, and the "new" markers on results.
- **Tree passes.** The passes over a page tree:
  - `find_links`: mentions, post type, template;
  - `dynamic`: code blocks run by an interpreter;
  - `include`: quoting another page, whole or by sections;
  - the search fragment that renders search results in place.
- **Helpers.** Table-of-contents rendering, metadata flattening to JSON, tag counting,
  read-path normalisation, and webmention target validation.

## Structure

- Module layout, one file each: `Wrappers`, `Strs` (Rust string helpers), `Tree` (the pandoc
  tree), `Meta`, `Paths`, `Links`, `Dynamic`, `Include`, `Queries`, `Sorting`, `Search`,
  `QueryString`, `Listing`, `Fragment`, `Tags`, `Webmention`, `Sync`.
- Everything outside the program's own logic is a function-valued parameter:
  - the pandoc converter, the interpreter runner, the JSON decoders;
  - the store's rows, the template renderer, the URL parser, the date codec;
  - the success of each store write.
- The concurrent rebuild tasks run as a sequential fold in task order.
- The search is parameterised by how the `u32` limit becomes the SQL `LIMIT`
  (`Search.LimitCast`):
  - `AsWritten` is the program's `as i32` wrap;
  - `Clamped` is the corrected cast. The rest of the model (fragments, listing) uses it.
- The include section rule is a parameter (`Include.SectionRule`):
  - `AsWritten` is the program's stop rule;
  - `SameOrShallower` is the intended one.

## Model

| member | source | states |
|---|---|---|
| Strs.TrimPrefixAllSplits | src/db.rs:222-223 | `trim_start_matches` removes only whole leading copies of the pattern: the input is those copies followed by the result |
| Strs.TrimSuffixAllSplits | src/db.rs:224 | `trim_end_matches` removes only whole trailing copies: the input is the result followed by those copies |
| Strs.ContainsIff | src/db.rs:611 | the title-substring test holds exactly when the filter occurs at some position of the title |
| Strs.ParseU32ShowNat | src/main.rs:414 | every `u32` limit written in decimal reads back as itself |
| Paths.LogicalPath | src/db.rs:218-225 | the key derived from a file path never starts with `.` or `/` and never ends with `.md` |
| Paths.LogicalPathSplits | src/db.rs:218-225 | the file path is some copies of the root, then leading junk of dots and slashes, then the key, then copies of `.md`, so nothing else is removed |
| Paths.LogicalPathCollision | src/db.rs:224 | two different files, `a.md` and `a.md.md`, get the same key |
| Paths.ExtensionMdIff | src/db.rs:209-212 | a path has extension `md` exactly when it ends in `.md` and its file name is not just `.md` |
| Paths.ReadKeyIdempotent | src/db.rs:319 | normalising a requested path twice gives the same as normalising it once |
| Paths.ReadKeyOfLogicalPath | src/db.rs:319 | normalising a stored key gives the key back, so every stored post can be read by its key |
| Meta.ParsePostTypeName | src/db.rs:153-172 | a post type's displayed name parses back to that post type |
| Meta.TocHtml | src/db.rs:126-151 | each table-of-contents entry renders as one `<li>` item, with a nested list exactly when it has subheadings |
| Meta.TocListHtml | src/db.rs:143-147 | subheadings render one after another: nothing for none, otherwise a run of `<li>` items |
| Meta.TocListHtmlAppend | src/db.rs:143-147 | rendering a list of entries distributes over concatenating the lists |
| Tree.MetaToJson | src/db.rs:84-104 | flattening metadata keeps the shape: maps become objects with the same keys in order, lists become arrays of the same length, booleans and strings are kept, inlines and blocks become strings |
| Tree.MetaToJsonNoNull | src/db.rs:84-104 | flattened metadata never contains a JSON null or number |
| Tree.FrontMatterJson | src/db.rs:105-110 | the flattened front matter has exactly the document's metadata keys |
| Tree.InlinesTextAppend | src/db.rs:61-69 | the text of a run of inlines is the text of its parts joined |
| Tree.QuotedTextLength | src/db.rs:70-83 | a quotation's text adds exactly one separator per quoted block |
| Tree.MapCodeBlocksIdentity | src/pandoc.rs:263-320 | a code-block pass whose rule keeps every code block of a page leaves the page unchanged |
| Links.FindLinks | src/pandoc.rs:83-138 | the link pass leaves the blocks unchanged and adds the keys `mentions`, `post_type` and `template`. `mentions` holds the mention targets in document order, then the bridging service, then the old list. `post_type` is always overwritten. An existing `template` is kept; otherwise it is the post type's default. Every other key is unchanged |
| Links.StepAllMentions | src/pandoc.rs:87-89 | visiting links appends exactly the targets of those carrying the `mention` class, in order |
| Links.NoMentionLinks | src/pandoc.rs:87-89 | links without the `mention` class contribute no target and no class, even when they carry `u-like-of` |
| Links.StepAllPostType | src/pandoc.rs:90-99 | the post type after the walk is the classification of the mention links' classes in document order |
| Links.ClassifyFirstKind | src/pandoc.rs:90-99 | the first `u-like-of`, `u-repost-of` or `u-in-reply-to` class decides the type; with none the type stays Note |
| Links.ClassifyKeeps | src/pandoc.rs:92-98 | once the type is not Note, no later class changes it |
| Links.VisitBlocksIsFold | src/pandoc.rs:83-106 | the tree walk is the same as folding over all links of the page in document order |
| Links.NoMentionsFallback | src/pandoc.rs:108-117 | with no mention links the type is Article when there is a title and Note otherwise, and the mentions are the bridging service then the old list |
| Dynamic.DynCodeBlock | src/pandoc.rs:144-180 | a code block without class `dynamic` is untouched. A failed run keeps the attributes and shows the fixed notice. A successful run shows standard output; with class `pandoc_ast` it becomes the decoded block, so a generated code block is not run again and a generated `Div` keeps its attributes and child count. The interpreter is `bash` unless an `interpreter` attribute names another |
| Dynamic.FindKv | src/pandoc.rs:149-153 | the attribute lookup finds the first pair with the key, and finds nothing exactly when no pair has it |
| Dynamic.DynBlocksIdentity | src/pandoc.rs:140-191 | a page without `dynamic` code blocks comes out of the pass unchanged |
| Dynamic.RunDynamic | src/pandoc.rs:182-190 | the pass keeps the metadata and the number of top-level blocks |
| Include.ScanSubseq | src/pandoc.rs:289-319 | section extraction copies an order-preserving subsequence of the page's top-level blocks |
| Include.Section | src/pandoc.rs:296-316 | a requested heading and its body are copied, the stopping heading is not, and the scan then starts afresh |
| Include.ScanSkipsPrefix | src/pandoc.rs:296-302 | blocks before the first requested heading are never copied |
| Include.SubsectionDropped | src/pandoc.rs:304-313 | as written, a level-3 subheading stops the copy of its level-2 section, while the section rule would keep it |
| Include.SectionOverruns | src/pandoc.rs:304-313 | as written, a level-2 section runs on past the next level-1 heading, while the section rule would end it there |
| Include.SectionKeepsSubsections | src/pandoc.rs:304-313 | under the section rule, a requested section is copied with all deeper subsections, up to the next heading of the same or a shallower level |
| Include.ResolveCode | src/pandoc.rs:263-327 | an `include` block becomes a quotation exactly when its spec parses and the page is stored. Otherwise the block is unchanged. The quotation ends with the attribution link to `/post/<src>`. With no headings it holds the whole page. Otherwise it holds exactly the extraction of the requested sections, an ordered subsequence of the page |
| Include.RunIncludeIdentity | src/pandoc.rs:254-330 | a page without `include` blocks comes out of the pass unchanged |
| Queries.InRangeCases | src/db.rs:627-628 | the unbounded range holds every date, and each of the other eight bound combinations holds exactly its closed, open, half-open or one-sided interval |
| Queries.ParseSortTypeName | src/db.rs:510-521 | a sort order's displayed name parses back to that sort order |
| Sorting.DescendingReverses | src/db.rs:525-536 | each descending comparator is the exact reverse of its ascending one |
| Sorting.CmpTransitive | src/db.rs:525-536 | every comparator is a total preorder |
| Sorting.SortBy | src/db.rs:632 | sorting returns a permutation of its input that is ordered by the comparator |
| Sorting.SortByStable | src/db.rs:632 | the sort is stable: posts that compare equal keep their input order |
| Search.StoreFilter | src/db.rs:608-616 | the store selects exactly the rows with the path prefix, the title substring and every tag |
| Search.AppFilter | src/db.rs:621-631 | the program keeps exactly the posts that are visible or allowed hidden, match no excluded prefix, lie in both date ranges and have the requested type |
| Search.FiltersCompose | src/db.rs:608-631 | the store filter followed by the program filter is the same as one filter by both conditions |
| Search.SqlLimit | src/db.rs:617 | the `LIMIT` is the requested limit when it fits in an `i32` and `i32::MAX` when there is none. As written, larger limits wrap to negative numbers; clamped, it is never negative |
| Search.RunSearch | src/db.rs:604-634 | the search fails exactly when the `LIMIT` it sends is negative |
| Search.SearchSound | src/db.rs:604-634 | every result is a stored post meeting every store-side and program-side condition; there are at most `LIMIT` results, in the requested order |
| Search.SearchComplete | src/db.rs:604-634 | when no more rows match the store than the limit, the results are exactly the posts meeting both filters, and equal-sorting posts stay in row order |
| Search.LimitBeforeFilters | src/db.rs:613-631 | the limit applies before visibility: a hidden post can use up a limit of one and hide a visible match |
| Search.SearchPosts | src/db.rs:604-634 | the search with the clamped cast never fails |
| QueryString.Values | src/db.rs:564-602 | the values of a key in a query string are all paired with that key, and there are none exactly when the key is absent |
| QueryString.EncodeValues | src/db.rs:566-599 | the encoding gives each key exactly its field's values. `sort_type` comes first. `search_path` appears only when non-empty. There is one `exclude_path` and one `tag` per element, in order. Included and excluded bounds share a key. `ignore_hidden` never appears |
| QueryString.DateFieldFromValue | src/main.rs:387-398 | an empty date value is Missing; otherwise the field is the parsed date, or Invalid when it does not parse |
| QueryString.ParseForm | src/main.rs:400-415 | decoding a form fails exactly when `sort_type` is present but names no sort order. The path and tag lists are all the values of their keys. An optional field (dates, title filter, post type, limit) is empty whenever its key is absent or repeated, and the title filter is the sole value otherwise |
| QueryString.FormQueryBijection | src/main.rs:417-447 | converting a form into a search and back gives the form. A search built from a form has inclusive bounds and `ignore_hidden` false, and converting it to a form and back gives it unchanged |
| QueryString.ParseEncode | src/db.rs:564-602 | decoding the encoding of any search gives back that search's form |
| QueryString.FormRoundTrip | src/main.rs:400-447 | for a search built from a form, encoding and decoding gives the same form and so the same search |
| QueryString.EncodeLossy | src/db.rs:577-599 | an exclusive lower bound reads back as an inclusive one, and a search showing hidden posts reads back as one that does not |
| Listing.FeedQuery | src/main.rs:513-515 | the feed always sorts newest first, and its limit is the requested one capped at 32 (32 when absent). Otherwise it is the form's search |
| Listing.FeedBounded | src/main.rs:507-515 | the feed's search never fails, even with the wrapping cast. It returns at most 32 posts, newest first, and the form it corresponds to gives back the same feed search |
| Listing.FeedReadsBack | src/main.rs:507-515 | the feed's query string, read back as a form and made into the feed's search again, gives the same search |
| Listing.RepeatedLimitFeed | src/main.rs:414 | a `limit` given twice is a duplicate, so the form has no limit and the feed asks for 32 |
| Listing.NewPaths | src/main.rs:485-488 | a result is marked new exactly when the reader has no viewed date for it or viewed it before its last update |
| Listing.ViewClearsNew | src/main.rs:286-289 | opening a page stops it being new, unless it is updated later, and changes no other mark |
| Fragment.ResolveSearch | src/pandoc.rs:193-240 | a `search` block becomes raw HTML exactly when its spec parses and the store answers. Otherwise the block is unchanged. The HTML is the rendered template, or the failure notice with the template's error |
| Fragment.FragmentShowsSearch | src/pandoc.rs:212-229 | a fragment shows only stored posts meeting the search, at most its limit, in its order, with a query string that reads back to the search |
| Fragment.RunFragmentsIdentity | src/pandoc.rs:193-252 | a page without `search` blocks comes out of the pass unchanged |
| Tags.TagSet | src/db.rs:477-487 | a tag is in the set exactly when some returned row carries it, as the flattened tag list is proved to hold |
| Tags.TagCountsExact | src/db.rs:489-502 | the counted tags are exactly the tag set, and each count is the tag's positive number of occurrences |
| Webmention.Validate | src/main.rs:300-337 | the checks run in the order source parse, source absolute, target parse, target absolute, same host, then post path: each refusal happens exactly when every earlier check passes and its own fails, and the mention is accepted exactly when all pass. On success the target is a page of ours whose path yields the post |
| Webmention.DropBytes | src/main.rs:334 | the result is a suffix of the text whose dropped prefix takes exactly the requested number of UTF-8 bytes, and there is a result exactly when some prefix of the text takes that many bytes, so it fails when the text is too short or the cut falls inside a character |
| Webmention.ServedPathRoundTrip | src/main.rs:331-334 | the path a post is served at, with or without `.md` and a trailing slash, yields the post's key |
| Webmention.PrefixNotChecked | src/main.rs:334 | any six ASCII characters are accepted in place of `/post/` |
| Webmention.ShortPathRefused | src/main.rs:334-336 | a path shorter than six bytes is refused as not a post |
| Sync.JobOf | src/db.rs:218-226 | each job's key is a well-formed key, and its stamp is the file's mtime minus one second |
| Sync.CandidatesMembers | src/db.rs:207-225 | the candidate jobs are exactly the jobs of non-directory entries whose extension is `md` |
| Sync.Decisions | src/db.rs:231-238 | a Markdown file is rebuilt exactly when stale, meaning it is unstored or its mtime minus a second is strictly newer than the stored stamp. A stored key is deleted exactly when no Markdown file maps to it, so nothing rebuilt is deleted |
| Sync.Prepare | src/db.rs:252-268 | a build succeeds exactly when the file converts, its metadata decodes after the link and dynamic passes, and the post is ready or the site is in development. A draft outside development is NotReady exactly. A conversion failure is Failed |
| Sync.Write | src/db.rs:269-283 | a record is written exactly when the build succeeds and the store accepts it, and it holds the job's stamp, tree and metadata |
| Sync.ApplyJob | src/db.rs:269-283 | one task's write adds at most its own key, which then holds the written record (or its old record when nothing is written), and leaves every other key as it was |
| Sync.LastWrite | src/db.rs:252-296 | the record is that of a successful task for the key after which no task for the key writes, or there is none exactly when every task for it failed |
| Sync.ApplyJobsAt | src/db.rs:252-296 | after the tasks a key holds its last successful write, or else its previous record |
| Sync.ApplyJobCommute | src/db.rs:252-296 | tasks on different keys can run in either order with the same result |
| Sync.CollisionOrderMatters | src/db.rs:252-296 | tasks on the same key with different records give different stores in different orders |
| Sync.PassEffect | src/db.rs:252-311 | after a pass a deleted key is gone. A rebuilt key holds its new record. A failed, unreadable or draft file leaves its prior entry untouched, and so does every other key |
| Sync.PassIdempotent | src/db.rs:226-311 | when every modification time is readable, keys are distinct, every write and delete of a pass succeeds and the files are unchanged, the next pass, at any time, has nothing to rebuild and nothing to delete |
| Sync.UnreadableRebuiltAgain | src/db.rs:213-217 | a file whose modification time cannot be read is stamped with the clock, so after a pass rebuilds it every later pass rebuilds it again |
| Sync.NotificationsExact | src/db.rs:284-295 | a notification goes out exactly for a written file, to each target its new metadata mentions or its stored metadata mentioned |

## Left out

- Reading the file system, the clock and the Postgres store are left out. The directory walk is a list of entries, and the store is a map or a list of rows.
- Store writes and deletes are parameters that succeed or fail per key.
- The pandoc converter and renderer (src/pandoc.rs:24-62) are a conversion oracle, because they run an external process.
- The `sudo`, temporary-file and permission work of `dynamic` (src/pandoc.rs:154-165) is left out; an oracle returns success and standard output instead.
- Dynamic.DynBlock: a `pandoc_ast` output that is not a valid block panics in the program. The panic surfaces through the `unwrap` of the blocking task (src/pandoc.rs:185-190) and then through `join_all` (src/db.rs:314), so the whole sync pass stops, not only that file. The model treats the decoder as total (it always yields a block).
- Dynamic.DynBlock: generated blocks nested inside generated blocks are descended into only up to a `fuel` bound, so unbounded self-generating pages are not modelled.
- Tree: bullet lists, ordered lists, tables, figures and the rest of pandoc's block kinds are left out. `Div` and `BlockQuote` stand for containers.
- Tree: the program's walks visit the front matter before the body, descending into the blocks and inlines of block- and inline-valued metadata, so `dynamic`, `include` and `search` code blocks inside front matter are run or replaced too. The model's passes visit only the body.
- serde and JSON decoding are partial-function oracles. This covers `ArticleMeta`, include specs, search specs, cookies and `pandoc_ast` output.
- Search.StoreMatch: the SQL `LIKE` wildcards `%` and `_` inside a title filter are not interpreted; the filter is a plain substring.
- Stored metadata that no longer decodes, and the schema-drift purge in `read_post` (src/db.rs:325-331), are left out. Rows are given already decoded.
- Percent-encoding of the query string is left out; a query string is a sequence of key/value pairs.
- Rocket's form parsing is modelled by its rules for `SearchForm`:
  - the first value wins for `search_path` and `sort_type`;
  - an `Option` field reads its value strictly, so a repeated key leaves it empty;
  - an optional field that does not parse is absent;
  - enum values match ignoring ASCII case;
  - unknown keys are ignored.
- Rocket's indexed list syntax (`tag[0]=…`) is left out.
- Sync.Pass: the rebuild tasks run concurrently in the program; the model applies them in task order. Sync.CollisionOrderMatters shows the order matters only for keys shared by two files.
- Sync.PassIdempotent: assumes the store keeps timestamps exactly. Postgres may round to microseconds, which is not modelled; the schema is not part of this model.
- Sync.PassIdempotent: takes the keys of the Markdown files to be distinct, because two files with one key race on the upsert.
- Sync.PassIdempotent: takes every modification time to be readable; a file whose time cannot be read is rebuilt on every pass (Sync.UnreadableRebuiltAgain).
- Non-UTF-8 file names, skipped by the program's `to_str`, are not modelled; paths are strings.
- Webmention sending and fetching (src/db.rs:350-419, src/main.rs:339-372) are left out, because they use the network.
- Rocket and Tera route glue in src/main.rs is left out. Templates are a rendering oracle.
- src/oauth.rs, src/guestbook.rs and src/cookies.rs are left out. The "viewed" map from the cookie is a parameter.
- `attach_mentioners` (src/pandoc.rs:341-362) is left out; its call is commented out.
- `trim_path`, `update_one` and a six-argument `run_postproc_filters` are not part of this model: src/main.rs:204, 259 and 261 call them, but src/db.rs defines neither `trim_path` nor `update_one`, and `run_postproc_filters` (src/pandoc.rs:70-76) takes five arguments, not six.
- Fragment.ResolveSearch: uses the clamped limit cast, so a search spec whose limit is 2^31 or more, which the program's search rejects (the block is kept, src/pandoc.rs:212-215), returns results in the model. The block is still kept when the store cannot be read. The program's wrapped cast is modelled in Search.RunSearch.

## Findings

| source | as written | input that shows it | evidently intended | confidence | as-written member | corrected member |
|---|---|---|---|---|---|---|
| src/pandoc.rs:304-313 | an included section stops at any non-requested heading whose level number is at least the section's, i.e. the same or a deeper level | a page `## A`, `### B`, paragraph, with `A` requested: only `## A` is copied. With `## A`, paragraph, `# C`, paragraph, the copy runs past `# C` | a section runs up to the next heading of the same or a shallower level, keeping its subsections | not executed | Include.SubsectionDropped | Include.SectionKeepsSubsections |
| src/db.rs:617 | the `u32` limit is converted with `as i32`, which wraps | `limit=2147483648` gives `LIMIT -2147483648`, which the store rejects, so the search fails | limits beyond `i32::MAX` saturate to `i32::MAX` | not executed | Search.WrappedLimitFails | Search.ClampedLimitNeverFails |

=== FILE: dynamic.dfy ===
/** The dynamic-content pass run when a page is converted: every code block with
    the class `dynamic` is executed by an interpreter and replaced by its output. */
module Dynamic {
  import opened Wrappers
  import opened Tree

  /** How a program run ended: whether it succeeded, and what it printed. */
  datatype Exit = Exit(success: bool, stdout: string)

  /** The outside world of the pass. `run(interpreter, program)` executes a program as an
      unprivileged user; `decode` reads a printed document block back. */
  datatype Runner = Runner(run: (string, string) -> Exit, decode: string -> Block)

  const DynamicClass: string := "dynamic"
  const AstClass: string := "pandoc_ast"
  const DefaultInterpreter: string := "bash"
  const FailureText: string := "Code block failed to execute, check server logs."

  /** The value of the first attribute called `key`, if any. */
  function FindKv(kvs: seq<(string, string)>, key: string): (r: Option<string>)
    ensures r.None? <==> forall i :: 0 <= i < |kvs| ==> kvs[i].0 != key
    ensures r.Some? ==> exists i :: 0 <= i < |kvs| && kvs[i] == (key, r.value) &&
                                    forall j :: 0 <= j < i ==> kvs[j].0 != key
  {
    if |kvs| == 0 then None
    else if kvs[0].0 == key then Some(kvs[0].1)
    else
      var r := FindKv(kvs[1..], key);
      assert forall j :: 0 <= j < |kvs| - 1 ==> kvs[1..][j] == kvs[j + 1];
      r
  }

  /** The interpreter a block asks for: its first `interpreter` attribute, else `bash`. */
  function Interpreter(a: Attr): string {
    FindKv(a.kvs, "interpreter").GetOr(DefaultInterpreter)
  }

  /** One block. A code block without the class is left alone (and not descended into);
      a failed run keeps the attributes and shows a fixed notice; a successful run shows
      the output, or, with class `pandoc_ast`, becomes the block the output describes,
      whose children are then visited in turn. Any other block has its children visited.
      `fuel` bounds how many generated blocks are descended into, one inside another. */
  function DynBlock(r: Runner, fuel: nat, b: Block): Block
    decreases fuel, b, 1
  {
    match b
    case CodeBlock(a, t) =>
      if !HasClass(a, DynamicClass) then b
      else
        var out := r.run(Interpreter(a), t);
        if !out.success then CodeBlock(a, FailureText)
        else if HasClass(a, AstClass) then
          if fuel == 0 then r.decode(out.stdout) else DynChildren(r, fuel - 1, r.decode(out.stdout))
        else CodeBlock(a, out.stdout)
    case _ => DynChildren(r, fuel, b)
  }

  /** The block with each child block visited; its own kind and attributes stay. */
  function DynChildren(r: Runner, fuel: nat, b: Block): (res: Block)
    ensures b.CodeBlock? || b.RawBlock? || b.HorizontalRule? ==> res == b
    ensures b.Div? ==> res.Div? && res.attr == b.attr && |res.blocks| == |b.blocks|
    ensures b.BlockQuote? ==> res.BlockQuote? && |res.blocks| == |b.blocks|
    ensures b.Header? ==> res.Header? && res.level == b.level && res.attr == b.attr
    ensures b.Para? ==> res.Para? && |res.inlines| == |b.inlines|
    ensures b.Plain? ==> res.Plain? && |res.inlines| == |b.inlines|
    ensures b.LineBlock? ==> res.LineBlock? && |res.lines| == |b.lines|
    decreases fuel, b, 0
  {
    match b
    case Plain(ins) => Plain(DynInlines(r, fuel, ins))
    case Para(ins) => Para(DynInlines(r, fuel, ins))
    case LineBlock(lines) => LineBlock(DynLines(r, fuel, lines))
    case BlockQuote(bs) => BlockQuote(DynBlocks(r, fuel, bs))
    case Header(l, a, ins) => Header(l, a, DynInlines(r, fuel, ins))
    case Div(a, bs) => Div(a, DynBlocks(r, fuel, bs))
    case _ => b
  }

  /** Blocks are visited one by one: a failing block affects only itself. */
  function DynBlocks(r: Runner, fuel: nat, bs: seq<Block>): (res: seq<Block>)
    ensures |res| == |bs|
    ensures forall i :: 0 <= i < |bs| ==> res[i] == DynBlock(r, fuel, bs[i])
    decreases fuel, bs, 0
  {
    if |bs| == 0 then [] else [DynBlock(r, fuel, bs[0])] + DynBlocks(r, fuel, bs[1..])
  }

  function DynLines(r: Runner, fuel: nat, lines: seq<Line>): (res: seq<Line>)
    ensures |res| == |lines|
    decreases fuel, lines, 0
  {
    if |lines| == 0 then []
    else [Line(DynInlines(r, fuel, lines[0].inlines))] + DynLines(r, fuel, lines[1..])
  }

  function DynInline(r: Runner, fuel: nat, i: Inline): Inline
    decreases fuel, i, 0
  {
    match i
    case Emph(c) => Emph(DynInlines(r, fuel, c))
    case Link(a, c, u, t) => Link(a, DynInlines(r, fuel, c), u, t)
    case Footnote(bs) => Footnote(DynBlocks(r, fuel, bs))
    case _ => i
  }

  function DynInlines(r: Runner, fuel: nat, ins: seq<Inline>): (res: seq<Inline>)
    ensures |res| == |ins|
    ensures forall k :: 0 <= k < |ins| ==> res[k] == DynInline(r, fuel, ins[k])
    decreases fuel, ins, 0
  {
    if |ins| == 0 then [] else [DynInline(r, fuel, ins[0])] + DynInlines(r, fuel, ins[1..])
  }

  /** The pass over a whole document; the front matter is not touched. */
  function RunDynamic(r: Runner, fuel: nat, doc: Doc): (res: Doc)
    ensures res.meta == doc.meta
    ensures |res.blocks| == |doc.blocks|
  {
    Doc(doc.meta, DynBlocks(r, fuel, doc.blocks))
  }

  /** What happens to a single code block, case by case. */
  lemma DynCodeBlock(r: Runner, fuel: nat, a: Attr, t: string)
    ensures !HasClass(a, DynamicClass) ==> DynBlock(r, fuel, CodeBlock(a, t)) == CodeBlock(a, t)
    ensures HasClass(a, DynamicClass) && !r.run(Interpreter(a), t).success ==>
              DynBlock(r, fuel, CodeBlock(a, t)) == CodeBlock(a, FailureText)
    ensures HasClass(a, DynamicClass) && r.run(Interpreter(a), t).success && !HasClass(a, AstClass) ==>
              DynBlock(r, fuel, CodeBlock(a, t)) == CodeBlock(a, r.run(Interpreter(a), t).stdout)
    ensures HasClass(a, DynamicClass) && r.run(Interpreter(a), t).success && HasClass(a, AstClass) ==>
              var d := r.decode(r.run(Interpreter(a), t).stdout);
              var res := DynBlock(r, fuel, CodeBlock(a, t));
              (d.CodeBlock? || d.RawBlock? || d.HorizontalRule? ==> res == d) &&
              (d.Div? ==> res.Div? && res.attr == d.attr && |res.blocks| == |d.blocks|)
    ensures Interpreter(a) == DefaultInterpreter <==>
              (forall i :: 0 <= i < |a.kvs| ==> a.kvs[i].0 != "interpreter") ||
              FindKv(a.kvs, "interpreter") == Some(DefaultInterpreter)
  {
  }

  predicate NotDynamic(a: Attr, t: string) {
    !HasClass(a, DynamicClass)
  }

  /** A tree without `dynamic` code blocks passes through unchanged, whatever the runner does. */
  lemma {:induction false} DynBlocksIdentity(r: Runner, fuel: nat, bs: seq<Block>)
    requires AllCodeBlocks(NotDynamic, bs)
    ensures DynBlocks(r, fuel, bs) == bs
    decreases bs
  {
    if |bs| > 0 {
      DynBlockIdentity(r, fuel, bs[0]);
      DynBlocksIdentity(r, fuel, bs[1..]);
      assert bs == [bs[0]] + bs[1..];
    }
  }

  lemma {:induction false} DynBlockIdentity(r: Runner, fuel: nat, b: Block)
    requires AllCodeBlock(NotDynamic, b)
    ensures DynBlock(r, fuel, b) == b
    decreases b
  {
    match b
    case Plain(ins) => DynInlinesIdentity(r, fuel, ins);
    case Para(ins) => DynInlinesIdentity(r, fuel, ins);
    case LineBlock(lines) => DynLinesIdentity(r, fuel, lines);
    case CodeBlock(_, _) =>
    case RawBlock(_, _) =>
    case BlockQuote(bs) => DynBlocksIdentity(r, fuel, bs);
    case Header(_, _, ins) => DynInlinesIdentity(r, fuel, ins);
    case Div(_, bs) => DynBlocksIdentity(r, fuel, bs);
    case HorizontalRule =>
  }

  lemma {:induction false} DynLinesIdentity(r: Runner, fuel: nat, lines: seq<Line>)
    requires AllCodeLines(NotDynamic, lines)
    ensures DynLines(r, fuel, lines) == lines
    decreases lines
  {
    if |lines| > 0 {
      DynInlinesIdentity(r, fuel, lines[0].inlines);
      DynLinesIdentity(r, fuel, lines[1..]);
      assert lines == [lines[0]] + lines[1..];
    }
  }

  lemma {:induction false} DynInlineIdentity(r: Runner, fuel: nat, i: Inline)
    requires AllCodeInline(NotDynamic, i)
    ensures DynInline(r, fuel, i) == i
    decreases i
  {
    match i
    case Emph(c) => DynInlinesIdentity(r, fuel, c);
    case Link(_, c, _, _) => DynInlinesIdentity(r, fuel, c);
    case Footnote(bs) => DynBlocksIdentity(r, fuel, bs);
    case _ =>
  }

  lemma {:induction false} DynInlinesIdentity(r: Runner, fuel: nat, ins: seq<Inline>)
    requires AllCodeInlines(NotDynamic, ins)
    ensures DynInlines(r, fuel, ins) == ins
    decreases ins
  {
    if |ins| > 0 {
      DynInlineIdentity(r, fuel, ins[0]);
      DynInlinesIdentity(r, fuel, ins[1..]);
      assert ins == [ins[0]] + ins[1..];
    }
  }
}

=== FILE: fragment.dfy ===
/** The search-fragment pass run when a page is served: a code block with the class
    `search` holds a search, and is replaced by the rendered list of its results. */
module Fragment {
  import opened Wrappers
  import opened Strs
  import opened Meta
  import opened Tree
  import opened Queries
  import opened Sorting
  import opened Search
  import opened QueryString
  import opened Listing

  const SearchClass: string := "search"
  const TemplateFailure: string := "Search template failure: "

  /** What the fragment template is given: the results, the search as query parameters, the
      paths the reader has not seen since they changed, and the search itself. */
  datatype FragContext = FragContext(
    articles: seq<Post>, searchQs: seq<Pair>, newPaths: set<string>, search: Query)

  /** The outside world of the pass: the spec parser, the stored posts (`None` when the store
      cannot be reached), the reader's viewed dates, the date codec and the template. */
  datatype FragEnv = FragEnv(
    parseSpec: string -> Option<Query>,
    store: Option<seq<Post>>,
    viewed: map<string, Date>,
    codec: DateCodec,
    render: FragContext -> Result<string, string>)

  /** The context handed to the template for a search and its results. */
  function ContextFor(env: FragEnv, spec: Query, found: seq<Post>): (ctx: FragContext)
    ensures ctx.articles == found && ctx.search == spec
    ensures forall path :: path in ctx.newPaths ==> exists i :: 0 <= i < |found| && found[i].path == path
  {
    FragContext(found, Encode(env.codec, spec), NewPaths(env.viewed, found), spec)
  }

  /** One code block. Without the class, with contents that are not a search, or when the
      search fails, the block stays; otherwise it becomes raw HTML: the rendered template, or
      a notice carrying the template's error. */
  function ResolveSearch(env: FragEnv, a: Attr, t: string): (r: Block)
    ensures r.RawBlock? <==> HasClass(a, SearchClass) && env.parseSpec(t).Some? && env.store.Some?
    ensures !r.RawBlock? ==> r == CodeBlock(a, t)
    ensures r.RawBlock? ==>
      var spec := env.parseSpec(t).value;
      var found := SearchPosts(env.store.value, spec).value;
      r.format == "html" &&
      match env.render(ContextFor(env, spec, found))
      case Ok(html) => r.text == html
      case Err(e) => r.text == TemplateFailure + e
  {
    if !HasClass(a, SearchClass) then CodeBlock(a, t)
    else
      match env.parseSpec(t)
      case None => CodeBlock(a, t)
      case Some(spec) =>
        match env.store
        case None => CodeBlock(a, t)
        case Some(rows) =>
          match SearchPosts(rows, spec)
          case Err(_) => CodeBlock(a, t)
          case Ok(found) =>
            var html := match env.render(ContextFor(env, spec, found))
              case Ok(h) => h
              case Err(e) => TemplateFailure + e;
            RawBlock("html", html)
  }

  /** The results a fragment shows are the search's: stored posts meeting every condition of
      the search, no more than its limit, in its order, with the query string it reads back
      from. */
  lemma FragmentShowsSearch(env: FragEnv, spec: Query, rows: seq<Post>)
    requires Faithful(env.codec)
    ensures var found := SearchPosts(rows, spec).value;
      var ctx := ContextFor(env, spec, found);
      (forall p :: p in ctx.articles ==> p in rows && StoreMatch(spec, p) && AppMatch(spec, p)) &&
      |ctx.articles| <= SqlLimit(Clamped, spec.limit) &&
      Sorted(spec.sortType, ctx.articles) &&
      ParseForm(env.codec, ctx.searchQs) == Some(ToForm(spec))
  {
    SearchSound(Clamped, rows, spec);
    ParseEncode(env.codec, spec);
  }

  /** The pass over a page: every code block, wherever it sits, is resolved. */
  function RunFragments(env: FragEnv, doc: Doc): (r: Doc)
    ensures r.meta == doc.meta && |r.blocks| == |doc.blocks|
  {
    Doc(doc.meta, MapCodeBlocks((a, t) => ResolveSearch(env, a, t), doc.blocks))
  }

  predicate NotSearch(a: Attr, t: string) {
    !HasClass(a, SearchClass)
  }

  /** A page without `search` code blocks is served as stored. */
  lemma RunFragmentsIdentity(env: FragEnv, doc: Doc)
    requires AllCodeBlocks(NotSearch, doc.blocks)
    ensures RunFragments(env, doc) == doc
  {
    var f := (a, t) => ResolveSearch(env, a, t);
    AllCodeBlocksMono(NotSearch, (a, t) => Keeps(f, a, t), doc.blocks);
    MapCodeBlocksIdentity(f, doc.blocks);
  }
}

=== FILE: include.dfy ===
/** The include pass run when a page is served: a code block with the class
    `include` names another stored page (and optionally some of its sections) and
    is replaced by a quotation of that page's blocks with an attribution link. */
module Include {
  import opened Wrappers
  import opened Tree

  /** The block's parsed contents: the key of the page to copy and the ids of the
      headings whose sections to copy (all of the page when empty). */
  datatype IncludeSpec = IncludeSpec(src: string, headings: seq<string>)

  /** The outside world of the pass: the spec parser and the store lookup by key. */
  datatype IncludeEnv = IncludeEnv(
    parseSpec: string -> Option<IncludeSpec>,
    lookup: string -> Option<seq<Block>>)

  const IncludeClass: string := "include"

  /** Which later heading ends a section that began at level `start`. */
  datatype SectionRule =
      /** The program as written: any heading whose level number is at least `start`,
          i.e. a heading of the same or a deeper level. */
    | AsWritten
      /** What a section means: a heading of the same or a shallower level. */
    | SameOrShallower

  predicate Ends(rule: SectionRule, start: int, level: int) {
    match rule
    case AsWritten => start <= level
    case SameOrShallower => level <= start
  }

  /** A heading whose id is one of the requested ones. */
  predicate Requested(hs: seq<string>, b: Block) {
    b.Header? && b.attr.id in hs
  }

  /** A heading that ends the section being taken, which began at level `start`. */
  predicate Stops(rule: SectionRule, hs: seq<string>, start: int, b: Block) {
    b.Header? && Ends(rule, start, b.level) && b.attr.id !in hs
  }

  /** The scan over the page's top-level blocks. `taking` is the level of the heading
      that opened the section being copied, if any. A requested heading opens a
      section when none is open; a stopping heading closes it and is not copied;
      every other block seen while a section is open is copied. */
  function Scan(rule: SectionRule, hs: seq<string>, taking: Option<int>, bs: seq<Block>): seq<Block>
    decreases bs
  {
    if |bs| == 0 then []
    else
      var b := bs[0];
      match taking
      case None =>
        if Requested(hs, b) then [b] + Scan(rule, hs, Some(b.level), bs[1..])
        else Scan(rule, hs, None, bs[1..])
      case Some(start) =>
        if Stops(rule, hs, start, b) then Scan(rule, hs, None, bs[1..])
        else [b] + Scan(rule, hs, taking, bs[1..])
  }

  /** The requested sections of a page. */
  function Extract(rule: SectionRule, hs: seq<string>, bs: seq<Block>): seq<Block> {
    Scan(rule, hs, None, bs)
  }

  /** `xs` is `ys` with some elements left out, the rest in their order. */
  predicate Subseq<T(==)>(xs: seq<T>, ys: seq<T>)
    decreases |ys|
  {
    |xs| == 0 || (|ys| > 0 && ((xs[0] == ys[0] && Subseq(xs[1..], ys[1..])) || Subseq(xs, ys[1..])))
  }

  /** Extraction only ever drops blocks: what it copies appears in the page, in order. */
  lemma {:induction false} ScanSubseq(rule: SectionRule, hs: seq<string>, taking: Option<int>, bs: seq<Block>)
    ensures Subseq(Scan(rule, hs, taking, bs), bs)
    decreases bs
  {
    if |bs| > 0 {
      var b := bs[0];
      match taking
      case None =>
        if Requested(hs, b) {
          ScanSubseq(rule, hs, Some(b.level), bs[1..]);
        } else {
          ScanSubseq(rule, hs, None, bs[1..]);
          SubseqSkip(Scan(rule, hs, None, bs[1..]), bs);
        }
      case Some(start) =>
        if Stops(rule, hs, start, b) {
          ScanSubseq(rule, hs, None, bs[1..]);
          SubseqSkip(Scan(rule, hs, None, bs[1..]), bs);
        } else {
          ScanSubseq(rule, hs, taking, bs[1..]);
        }
    }
  }

  lemma SubseqSkip<T>(xs: seq<T>, ys: seq<T>)
    requires |ys| > 0 && Subseq(xs, ys[1..])
    ensures Subseq(xs, ys)
  {
  }

  /** Blocks before the first requested heading are never copied. */
  lemma {:induction false} ScanSkipsPrefix(rule: SectionRule, hs: seq<string>, pre: seq<Block>, rest: seq<Block>)
    requires forall i :: 0 <= i < |pre| ==> !Requested(hs, pre[i])
    ensures Scan(rule, hs, None, pre + rest) == Scan(rule, hs, None, rest)
    decreases pre
  {
    if |pre| > 0 {
      assert (pre + rest)[0] == pre[0];
      assert (pre + rest)[1..] == pre[1..] + rest;
      ScanSkipsPrefix(rule, hs, pre[1..], rest);
    } else {
      assert pre + rest == rest;
    }
  }

  /** While a section is open, every block up to the first stopping heading is copied. */
  lemma {:induction false} ScanCopiesBody(rule: SectionRule, hs: seq<string>, start: int, body: seq<Block>, rest: seq<Block>)
    requires forall i :: 0 <= i < |body| ==> !Stops(rule, hs, start, body[i])
    ensures Scan(rule, hs, Some(start), body + rest) == body + Scan(rule, hs, Some(start), rest)
    decreases body
  {
    if |body| > 0 {
      assert (body + rest)[0] == body[0];
      assert (body + rest)[1..] == body[1..] + rest;
      ScanCopiesBody(rule, hs, start, body[1..], rest);
      assert body == [body[0]] + body[1..];
    } else {
      assert body + rest == rest;
    }
  }

  /** A requested heading, its section body, and the heading that ends the section: the
      heading and the body are copied, the stopper is not, and the scan starts afresh. */
  lemma Section(rule: SectionRule, hs: seq<string>, h: Block, body: seq<Block>, stop: Block, rest: seq<Block>)
    requires Requested(hs, h)
    requires forall i :: 0 <= i < |body| ==> !Stops(rule, hs, h.level, body[i])
    requires Stops(rule, hs, h.level, stop)
    ensures Extract(rule, hs, [h] + body + [stop] + rest) == [h] + body + Extract(rule, hs, rest)
  {
    var all := [h] + body + [stop] + rest;
    assert all[0] == h && all[1..] == body + ([stop] + rest);
    ScanCopiesBody(rule, hs, h.level, body, [stop] + rest);
    assert ([stop] + rest)[1..] == rest;
  }

  /** Under the section rule, a requested section is copied with all its deeper
      subsections, up to the next heading of the same or a shallower level. */
  lemma SectionKeepsSubsections(hs: seq<string>, h: Block, body: seq<Block>, stop: Block, rest: seq<Block>)
    requires Requested(hs, h)
    requires forall i :: 0 <= i < |body| && body[i].Header? ==> body[i].level > h.level
    requires stop.Header? && stop.level <= h.level && stop.attr.id !in hs
    ensures Extract(SameOrShallower, hs, [h] + body + [stop] + rest) == [h] + body + Extract(SameOrShallower, hs, rest)
  {
    Section(SameOrShallower, hs, h, body, stop, rest);
  }

  // ---------------------------------------------------------------------------
  // The stop rule as written, against the section rule.
  // ---------------------------------------------------------------------------

  /** As written, a level-2 section loses its level-3 subsections: the subheading stops
      the copy. Under the section rule they are copied. */
  lemma SubsectionDropped(id: string, sub: string, t1: seq<Inline>, t2: seq<Inline>, p: Block)
    requires id != sub && !p.Header?
    ensures var page := [Header(2, Attr(id, [], []), t1), Header(3, Attr(sub, [], []), t2), p];
      Extract(AsWritten, [id], page) == page[..1] &&
      Extract(SameOrShallower, [id], page) == page
  {
    var h, sh := Header(2, Attr(id, [], []), t1), Header(3, Attr(sub, [], []), t2);
    var page := [h, sh, p];
    assert page == [h] + [] + [sh] + [p];
    Section(AsWritten, [id], h, [], sh, [p]);
    ScanSkipsPrefix(AsWritten, [id], [p], []);
    assert [p] + [] == [p];
    assert page[1..] == [sh, p] + [];
    ScanCopiesBody(SameOrShallower, [id], 2, [sh, p], []);
  }

  /** As written, a level-2 section runs on past the next level-1 heading into the
      following part of the page. Under the section rule it ends there. */
  lemma SectionOverruns(id: string, next: string, t1: seq<Inline>, t2: seq<Inline>, p: Block, q: Block)
    requires id != next && !p.Header? && !q.Header?
    ensures var page := [Header(2, Attr(id, [], []), t1), p, Header(1, Attr(next, [], []), t2), q];
      Extract(AsWritten, [id], page) == page &&
      Extract(SameOrShallower, [id], page) == page[..2]
  {
    var h, nh := Header(2, Attr(id, [], []), t1), Header(1, Attr(next, [], []), t2);
    var page := [h, p, nh, q];
    assert page[1..] == [p, nh, q] + [];
    ScanCopiesBody(AsWritten, [id], 2, [p, nh, q], []);
    assert page == [h] + [p] + [nh] + [q];
    Section(SameOrShallower, [id], h, [p], nh, [q]);
    ScanSkipsPrefix(SameOrShallower, [id], [q], []);
    assert [q] + [] == [q];
    assert page[..2] == [h] + [p];
  }

  // ---------------------------------------------------------------------------
  // The replacement rule and the pass.
  // ---------------------------------------------------------------------------

  /** The line appended to every inclusion: a link back to the copied page. */
  function Attribution(src: string): Block {
    LineBlock([Line([Link(NoAttr, [Str("(copied from another page)")], "/post/" + src, "")])])
  }

  /** One code block. Without the class, with contents that are not a spec, or naming a page
      that is not stored, the block stays; otherwise it becomes a quotation of the page (or
      of its requested sections) followed by the attribution. */
  function ResolveCode(env: IncludeEnv, rule: SectionRule, a: Attr, t: string): (r: Block)
    ensures r.BlockQuote? <==>
              HasClass(a, IncludeClass) && env.parseSpec(t).Some? && env.lookup(env.parseSpec(t).value.src).Some?
    ensures !r.BlockQuote? ==> r == CodeBlock(a, t)
    ensures r.BlockQuote? ==>
              var spec := env.parseSpec(t).value;
              var page := env.lookup(spec.src).value;
              |r.blocks| > 0 && r.blocks[|r.blocks| - 1] == Attribution(spec.src) &&
              (|spec.headings| == 0 ==> r.blocks[..|r.blocks| - 1] == page) &&
              (|spec.headings| > 0 ==> r.blocks[..|r.blocks| - 1] == Extract(rule, spec.headings, page)) &&
              Subseq(r.blocks[..|r.blocks| - 1], page)
  {
    if !HasClass(a, IncludeClass) then CodeBlock(a, t)
    else
      match env.parseSpec(t)
      case None => CodeBlock(a, t)
      case Some(spec) =>
        match env.lookup(spec.src)
        case None => CodeBlock(a, t)
        case Some(page) =>
          var copied := if |spec.headings| == 0 then page else Extract(rule, spec.headings, page);
          assert Subseq(copied, page) by {
            if |spec.headings| == 0 {
              SubseqRefl(page);
            } else {
              ScanSubseq(rule, spec.headings, None, page);
            }
          }
          var r := BlockQuote(copied + [Attribution(spec.src)]);
          assert r.blocks[..|r.blocks| - 1] == copied;
          r
  }

  lemma {:induction false} SubseqRefl<T>(xs: seq<T>)
    ensures Subseq(xs, xs)
    decreases |xs|
  {
    if |xs| > 0 {
      SubseqRefl(xs[1..]);
    }
  }

  /** The include pass over a page: every code block, wherever it sits, is resolved. */
  function RunInclude(env: IncludeEnv, rule: SectionRule, doc: Doc): (r: Doc)
    ensures r.meta == doc.meta && |r.blocks| == |doc.blocks|
  {
    Doc(doc.meta, MapCodeBlocks((a, t) => ResolveCode(env, rule, a, t), doc.blocks))
  }

  predicate NotInclude(a: Attr, t: string) {
    !HasClass(a, IncludeClass)
  }

  /** A page without `include` code blocks is served as stored. */
  lemma RunIncludeIdentity(env: IncludeEnv, rule: SectionRule, doc: Doc)
    requires AllCodeBlocks(NotInclude, doc.blocks)
    ensures RunInclude(env, rule, doc) == doc
  {
    var f := (a, t) => ResolveCode(env, rule, a, t);
    AllCodeBlocksMono(NotInclude, (a, t) => Keeps(f, a, t), doc.blocks);
    MapCodeBlocksIdentity(f, doc.blocks);
  }
}

=== FILE: links.dfy ===
/** The link pass run when a page is converted: it collects the targets of
    `mention` links, classifies the post from their classes, and records both,
    with a default template, in the front matter. */
module Links {
  import opened Wrappers
  import opened Tree
  import opened Meta

  /** What the pass reads from a link: its classes and its target. */
  datatype LinkRef = LinkRef(classes: seq<string>, url: string)

  /** The visitor's state: the targets collected so far and the post type so far. */
  datatype LinkState = LinkState(mentions: seq<string>, postType: PostType)

  const MentionClass: string := "mention"

  /** Every post announces itself to the bridging service as well. */
  const BridgyUrl: string := "https://fed.brid.gy/"

  /** The post type a single class asks for; any other class asks for a note. */
  function KindOf(c: string): PostType {
    if c == "u-like-of" then Like
    else if c == "u-repost-of" then Repost
    else if c == "u-in-reply-to" then Reply
    else Note
  }

  predicate IsKindClass(c: string) {
    c == "u-like-of" || c == "u-repost-of" || c == "u-in-reply-to"
  }

  /** The classes of one mention link, read in order: while the type is still a note,
      each class overwrites it. */
  function Classify(t: PostType, cs: seq<string>): PostType
    decreases cs
  {
    if |cs| == 0 then t
    else Classify(if t == Note then KindOf(cs[0]) else t, cs[1..])
  }

  /** One link seen by the visitor. */
  function Step(st: LinkState, l: LinkRef): (r: LinkState)
    ensures MentionClass !in l.classes ==> r == st
  {
    if MentionClass in l.classes then LinkState(st.mentions + [l.url], Classify(st.postType, l.classes))
    else st
  }

  // ---------------------------------------------------------------------------
  // The visitor: one walk over the tree threading the state, visiting a link
  // before its content and a footnote's blocks where the footnote sits.
  // ---------------------------------------------------------------------------

  function VisitInline(st: LinkState, i: Inline): LinkState
    decreases i
  {
    match i
    case Link(a, c, u, _) => VisitInlines(Step(st, LinkRef(a.classes, u)), c)
    case Emph(c) => VisitInlines(st, c)
    case Footnote(bs) => VisitBlocks(st, bs)
    case _ => st
  }

  function VisitInlines(st: LinkState, ins: seq<Inline>): LinkState
    decreases ins
  {
    if |ins| == 0 then st else VisitInlines(VisitInline(st, ins[0]), ins[1..])
  }

  function VisitLines(st: LinkState, lines: seq<Line>): LinkState
    decreases lines
  {
    if |lines| == 0 then st else VisitLines(VisitInlines(st, lines[0].inlines), lines[1..])
  }

  function VisitBlock(st: LinkState, b: Block): LinkState
    decreases b
  {
    match b
    case Plain(ins) => VisitInlines(st, ins)
    case Para(ins) => VisitInlines(st, ins)
    case LineBlock(lines) => VisitLines(st, lines)
    case BlockQuote(bs) => VisitBlocks(st, bs)
    case Header(_, _, ins) => VisitInlines(st, ins)
    case Div(_, bs) => VisitBlocks(st, bs)
    case _ => st
  }

  function VisitBlocks(st: LinkState, bs: seq<Block>): LinkState
    decreases bs
  {
    if |bs| == 0 then st else VisitBlocks(VisitBlock(st, bs[0]), bs[1..])
  }

  // ---------------------------------------------------------------------------
  // The declarative reading: the links of a tree in document order, and what
  // the collected targets and the post type are in terms of that list.
  // ---------------------------------------------------------------------------

  function LinksOfInline(i: Inline): seq<LinkRef>
  {
    match i
    case Link(a, c, u, _) => [LinkRef(a.classes, u)] + LinksOfInlines(c)
    case Emph(c) => LinksOfInlines(c)
    case Footnote(bs) => LinksOfBlocks(bs)
    case _ => []
  }

  function LinksOfInlines(ins: seq<Inline>): seq<LinkRef>
  {
    if |ins| == 0 then [] else LinksOfInline(ins[0]) + LinksOfInlines(ins[1..])
  }

  function LinksOfLines(lines: seq<Line>): seq<LinkRef>
  {
    if |lines| == 0 then [] else LinksOfInlines(lines[0].inlines) + LinksOfLines(lines[1..])
  }

  function LinksOfBlock(b: Block): seq<LinkRef>
  {
    match b
    case Plain(ins) => LinksOfInlines(ins)
    case Para(ins) => LinksOfInlines(ins)
    case LineBlock(lines) => LinksOfLines(lines)
    case BlockQuote(bs) => LinksOfBlocks(bs)
    case Header(_, _, ins) => LinksOfInlines(ins)
    case Div(_, bs) => LinksOfBlocks(bs)
    case _ => []
  }

  function LinksOfBlocks(bs: seq<Block>): seq<LinkRef>
  {
    if |bs| == 0 then [] else LinksOfBlock(bs[0]) + LinksOfBlocks(bs[1..])
  }

  /** The targets of the links that carry the `mention` class, in order. */
  function MentionTargets(ls: seq<LinkRef>): seq<string>
  {
    if |ls| == 0 then []
    else (if MentionClass in ls[0].classes then [ls[0].url] else []) + MentionTargets(ls[1..])
  }

  /** The classes of the mention links, one link after another. */
  function MentionClasses(ls: seq<LinkRef>): seq<string>
  {
    if |ls| == 0 then []
    else (if MentionClass in ls[0].classes then ls[0].classes else []) + MentionClasses(ls[1..])
  }

  /** The visitor's state after a list of links. */
  function StepAll(st: LinkState, ls: seq<LinkRef>): LinkState
    decreases ls
  {
    if |ls| == 0 then st else StepAll(Step(st, ls[0]), ls[1..])
  }

  lemma {:induction false} StepAllAppend(st: LinkState, a: seq<LinkRef>, b: seq<LinkRef>)
    ensures StepAll(st, a + b) == StepAll(StepAll(st, a), b)
    decreases a
  {
    if |a| == 0 {
      assert a + b == b;
    } else {
      assert (a + b)[1..] == a[1..] + b;
      StepAllAppend(Step(st, a[0]), a[1..], b);
    }
  }

  /** The visitor computes exactly the fold of `Step` over the links in document order. */
  lemma {:induction false} VisitBlocksIsFold(st: LinkState, bs: seq<Block>)
    ensures VisitBlocks(st, bs) == StepAll(st, LinksOfBlocks(bs))
    decreases bs
  {
    if |bs| > 0 {
      VisitBlockIsFold(st, bs[0]);
      VisitBlocksIsFold(VisitBlock(st, bs[0]), bs[1..]);
      StepAllAppend(st, LinksOfBlock(bs[0]), LinksOfBlocks(bs[1..]));
    }
  }

  lemma {:induction false} VisitBlockIsFold(st: LinkState, b: Block)
    ensures VisitBlock(st, b) == StepAll(st, LinksOfBlock(b))
    decreases b
  {
    match b
    case Plain(ins) => VisitInlinesIsFold(st, ins);
    case Para(ins) => VisitInlinesIsFold(st, ins);
    case LineBlock(lines) => VisitLinesIsFold(st, lines);
    case BlockQuote(bs) => VisitBlocksIsFold(st, bs);
    case Header(_, _, ins) => VisitInlinesIsFold(st, ins);
    case Div(_, bs) => VisitBlocksIsFold(st, bs);
    case _ =>
  }

  lemma {:induction false} VisitLinesIsFold(st: LinkState, lines: seq<Line>)
    ensures VisitLines(st, lines) == StepAll(st, LinksOfLines(lines))
    decreases lines
  {
    if |lines| > 0 {
      VisitInlinesIsFold(st, lines[0].inlines);
      VisitLinesIsFold(VisitInlines(st, lines[0].inlines), lines[1..]);
      StepAllAppend(st, LinksOfInlines(lines[0].inlines), LinksOfLines(lines[1..]));
    }
  }

  lemma {:induction false} VisitInlineIsFold(st: LinkState, i: Inline)
    ensures VisitInline(st, i) == StepAll(st, LinksOfInline(i))
    decreases i
  {
    match i
    case Link(a, c, u, _) =>
      var l := LinkRef(a.classes, u);
      VisitInlinesIsFold(Step(st, l), c);
      StepAllAppend(st, [l], LinksOfInlines(c));
    case Emph(c) => VisitInlinesIsFold(st, c);
    case Footnote(bs) => VisitBlocksIsFold(st, bs);
    case _ =>
  }

  lemma {:induction false} VisitInlinesIsFold(st: LinkState, ins: seq<Inline>)
    ensures VisitInlines(st, ins) == StepAll(st, LinksOfInlines(ins))
    decreases ins
  {
    if |ins| > 0 {
      VisitInlineIsFold(st, ins[0]);
      VisitInlinesIsFold(VisitInline(st, ins[0]), ins[1..]);
      StepAllAppend(st, LinksOfInline(ins[0]), LinksOfInlines(ins[1..]));
    }
  }

  /** The fold appends the mention targets, in order, to what was collected before; links
      without the `mention` class add nothing. */
  lemma {:induction false} StepAllMentions(st: LinkState, ls: seq<LinkRef>)
    ensures StepAll(st, ls).mentions == st.mentions + MentionTargets(ls)
    decreases ls
  {
    if |ls| > 0 {
      StepAllMentions(Step(st, ls[0]), ls[1..]);
    }
  }

  lemma {:induction false} ClassifyAppend(t: PostType, a: seq<string>, b: seq<string>)
    ensures Classify(t, a + b) == Classify(Classify(t, a), b)
    decreases a
  {
    if |a| == 0 {
      assert a + b == b;
    } else {
      assert (a + b)[1..] == a[1..] + b;
      ClassifyAppend(if t == Note then KindOf(a[0]) else t, a[1..], b);
    }
  }

  /** The post type after the fold is the classification of all mention-link classes,
      read as one list. */
  lemma {:induction false} StepAllPostType(st: LinkState, ls: seq<LinkRef>)
    ensures StepAll(st, ls).postType == Classify(st.postType, MentionClasses(ls))
    decreases ls
  {
    if |ls| > 0 {
      StepAllPostType(Step(st, ls[0]), ls[1..]);
      ClassifyAppend(st.postType, if MentionClass in ls[0].classes then ls[0].classes else [],
                     MentionClasses(ls[1..]));
    }
  }

  /** Once the type is no longer a note, no class changes it. */
  lemma {:induction false} ClassifyKeeps(t: PostType, cs: seq<string>)
    requires t != Note
    ensures Classify(t, cs) == t
  {
    if |cs| > 0 {
      ClassifyKeeps(t, cs[1..]);
    }
  }

  /** Starting from a note, the first like/repost/reply class decides the type, and with no
      such class the type stays a note. */
  lemma {:induction false} ClassifyFirstKind(cs: seq<string>)
    ensures (forall i :: 0 <= i < |cs| ==> !IsKindClass(cs[i])) ==> Classify(Note, cs) == Note
    ensures forall i :: 0 <= i < |cs| && IsKindClass(cs[i]) && (forall j :: 0 <= j < i ==> !IsKindClass(cs[j]))
                        ==> Classify(Note, cs) == KindOf(cs[i])
  {
    if |cs| > 0 {
      ClassifyFirstKind(cs[1..]);
      if IsKindClass(cs[0]) {
        ClassifyKeeps(KindOf(cs[0]), cs[1..]);
      } else {
        assert KindOf(cs[0]) == Note;
        forall i | 0 <= i < |cs| && IsKindClass(cs[i]) && (forall j :: 0 <= j < i ==> !IsKindClass(cs[j]))
          ensures Classify(Note, cs) == KindOf(cs[i])
        {
          assert i > 0;
          assert forall j :: 0 <= j < i - 1 ==> !IsKindClass(cs[1..][j]) by {
            forall j | 0 <= j < i - 1 ensures !IsKindClass(cs[1..][j]) {
              assert cs[1..][j] == cs[j + 1];
            }
          }
        }
      }
    }
  }

  /** The type the pass gives a document: the first like/repost/reply class of its
      mention links, else an article when the front matter has a title, else a note. */
  function DocPostType(doc: Doc): PostType {
    var t := Classify(Note, MentionClasses(LinksOfBlocks(doc.blocks)));
    if t == Note && "title" in doc.meta then Article else t
  }

  /** The default template for a post type. */
  function TemplateName(t: PostType): string {
    match t
    case Note => "note"
    case Article => "article"
    case Like => "like"
    case Repost => "repost"
    case Reply => "reply"
  }

  function AsMetaStrings(ss: seq<string>): (r: seq<MetaValue>)
    ensures |r| == |ss| && forall k :: 0 <= k < |ss| ==> r[k] == MetaString(ss[k])
  {
    if |ss| == 0 then [] else [MetaString(ss[0])] + AsMetaStrings(ss[1..])
  }

  /** A pre-existing `mentions` list, kept after the new entries; any other value is dropped. */
  function ExistingMentions(meta: map<string, MetaValue>): seq<MetaValue> {
    if "mentions" in meta && meta["mentions"].MetaList? then meta["mentions"].items else []
  }

  /** The link pass. The blocks are left as they are; the front matter gains the mention list
      (targets, then the bridging service, then the old list), the post type, and a template
      when none was set. Every other key keeps its value. */
  function FindLinks(doc: Doc): (r: Doc)
    ensures r.blocks == doc.blocks
    ensures r.meta.Keys == doc.meta.Keys + {"mentions", "post_type", "template"}
    ensures r.meta["mentions"] ==
              MetaList(AsMetaStrings(MentionTargets(LinksOfBlocks(doc.blocks)) + [BridgyUrl]) + ExistingMentions(doc.meta))
    ensures r.meta["post_type"] == MetaString(PostTypeName(DocPostType(doc)))
    ensures "template" in doc.meta ==> r.meta["template"] == doc.meta["template"]
    ensures "template" !in doc.meta ==> r.meta["template"] == MetaString(TemplateName(DocPostType(doc)))
    ensures forall k :: k in doc.meta && k !in {"mentions", "post_type", "template"} ==> r.meta[k] == doc.meta[k]
  {
    var st := VisitBlocks(LinkState([], Note), doc.blocks);
    VisitBlocksIsFold(LinkState([], Note), doc.blocks);
    StepAllMentions(LinkState([], Note), LinksOfBlocks(doc.blocks));
    StepAllPostType(LinkState([], Note), LinksOfBlocks(doc.blocks));
    assert st.mentions == MentionTargets(LinksOfBlocks(doc.blocks));
    var postType := if st.postType == Note && "title" in doc.meta then Article else st.postType;
    var mentions := AsMetaStrings(st.mentions + [BridgyUrl]) + ExistingMentions(doc.meta);
    var meta := doc.meta["mentions" := MetaList(mentions)]["post_type" := MetaString(PostTypeName(postType))];
    var meta := if "template" in meta then meta else meta["template" := MetaString(TemplateName(postType))];
    Doc(meta, doc.blocks)
  }

  /** A document with no mention links is an article exactly when it has a title, and its
      mention list is the bridging service followed by the old list. */
  lemma NoMentionsFallback(doc: Doc)
    requires forall l :: l in LinksOfBlocks(doc.blocks) ==> MentionClass !in l.classes
    ensures FindLinks(doc).meta["post_type"] == MetaString(if "title" in doc.meta then "Article" else "Note")
    ensures FindLinks(doc).meta["mentions"] == MetaList([MetaString(BridgyUrl)] + ExistingMentions(doc.meta))
  {
    NoMentionLinks(LinksOfBlocks(doc.blocks));
  }

  lemma {:induction false} NoMentionLinks(ls: seq<LinkRef>)
    requires forall l :: l in ls ==> MentionClass !in l.classes
    ensures MentionTargets(ls) == [] && MentionClasses(ls) == []
  {
    if |ls| > 0 {
      assert ls[0] in ls;
      NoMentionLinks(ls[1..]);
    }
  }
}

=== FILE: listing.dfy ===
/** The request-side rules of the listing pages: the Atom feed's forced order and limit,
    and which results a reader has not seen since they last changed. */
module Listing {
  import opened Wrappers
  import opened Strs
  import opened Meta
  import opened Queries
  import opened Sorting
  import opened Search
  import opened QueryString

  const FeedLimit: U32 := 32

  /** The search behind the feed (`search_feed`): the form's search, newest first, with the
      limit capped at 32 and set to 32 when none was asked for. */
  function FeedQuery(f: SearchForm): (q: Query)
    ensures q.sortType == CreateDesc
    ensures q.limit.Some? && q.limit.value <= FeedLimit
    ensures f.limit.Some? && f.limit.value <= FeedLimit ==> q.limit == f.limit
    ensures f.limit.None? || f.limit.value > FeedLimit ==> q.limit == Some(FeedLimit)
    ensures q.(sortType := f.sortType, limit := f.limit) == FromForm(f)
  {
    var q := FromForm(f);
    q.(limit := Some(if q.limit.Some? && q.limit.value < FeedLimit then q.limit.value else FeedLimit),
       sortType := CreateDesc)
  }

  /** The feed never meets the limit wrap-around: even with the cast as written the search
      succeeds, returns at most 32 posts, newest first; and asking the feed for its own search
      changes nothing. */
  lemma FeedBounded(f: SearchForm, rows: seq<Post>)
    ensures RunSearch(AsWritten, rows, FeedQuery(f)) == RunSearch(Clamped, rows, FeedQuery(f))
    ensures RunSearch(AsWritten, rows, FeedQuery(f)).Ok?
    ensures |RunSearch(AsWritten, rows, FeedQuery(f)).value| <= FeedLimit
    ensures Sorted(CreateDesc, RunSearch(AsWritten, rows, FeedQuery(f)).value)
    ensures FeedQuery(ToForm(FeedQuery(f))) == FeedQuery(f)
  {
    SearchSound(AsWritten, rows, FeedQuery(f));
    FormQueryBijection(f, FeedQuery(f));
  }

  /** The feed's query string, read back and turned into the feed's search again, gives the
      same search. */
  lemma FeedReadsBack(c: DateCodec, f: SearchForm)
    requires Faithful(c)
    ensures ParseForm(c, Encode(c, FeedQuery(f))).Some?
    ensures FeedQuery(ParseForm(c, Encode(c, FeedQuery(f))).value) == FeedQuery(f)
  {
    ParseEncode(c, FeedQuery(f));
    FeedBounded(f, []);
  }

  /** A limit given twice is a duplicate: the form has no limit and the feed uses 32. */
  lemma RepeatedLimitFeed(c: DateCodec, v: string, w: string)
    ensures var f := ParseForm(c, [(LimitKey, v), (LimitKey, w)]);
      f.Some? && f.value.limit.None? && FeedQuery(f.value).limit == Some(FeedLimit)
  {
    var ps := [(LimitKey, v), (LimitKey, w)];
    assert Values(ps, LimitKey) == [v, w] by {
      assert ps[1..] == [(LimitKey, w)];
      assert ps[1..][1..] == [];
    }
  }

  /** A result is new to a reader who never opened it, or who last opened it on a day before
      it was last updated. */
  predicate IsNew(viewed: map<string, Date>, p: Post) {
    p.path !in viewed || viewed[p.path] < p.meta.updated
  }

  /** The paths of the results marked new. */
  function NewPaths(viewed: map<string, Date>, results: seq<Post>): (r: set<string>)
    ensures forall path :: path in r <==>
      exists i :: 0 <= i < |results| && results[i].path == path && IsNew(viewed, results[i])
  {
    set i | 0 <= i < |results| && IsNew(viewed, results[i]) :: results[i].path
  }

  /** Opening a page records the day it was opened: it stops being new unless it is updated
      later, and no other path changes its mark. */
  lemma ViewClearsNew(viewed: map<string, Date>, p: Post, today: Date, results: seq<Post>)
    requires p.meta.updated <= today
    requires forall i :: 0 <= i < |results| && results[i].path == p.path ==> results[i].meta.updated <= today
    ensures p.path !in NewPaths(viewed[p.path := today], results)
    ensures forall path :: path != p.path ==>
      (path in NewPaths(viewed[p.path := today], results) <==> path in NewPaths(viewed, results))
  {
    var after := viewed[p.path := today];
    forall path | path != p.path
      ensures path in NewPaths(after, results) <==> path in NewPaths(viewed, results)
    {
      if path in NewPaths(viewed, results) {
        var i :| 0 <= i < |results| && results[i].path == path && IsNew(viewed, results[i]);
        assert IsNew(after, results[i]);
      }
      if path in NewPaths(after, results) {
        var i :| 0 <= i < |results| && results[i].path == path && IsNew(after, results[i]);
        assert IsNew(viewed, results[i]);
      }
    }
  }
}

=== FILE: meta.dfy ===
/** Document-level metadata: post types, the table of contents and the
    `ArticleMeta` record stored beside every converted document. */
module Meta {
  import opened Wrappers
  import opened Strs

  /** A calendar date, as a day number; only its order matters to the model. */
  type Date = int

  datatype PostType = Note | Article | Like | Repost | Reply

  /** The variant name, which is how the type is displayed and stored. */
  function PostTypeName(t: PostType): string {
    match t
    case Note => "Note"
    case Article => "Article"
    case Like => "Like"
    case Repost => "Repost"
    case Reply => "Reply"
  }

  const AllPostTypes: seq<PostType> := [Note, Article, Like, Repost, Reply]

  /** Reading a post type from a form value: the variant whose name matches, ignoring ASCII case. */
  function ParsePostType(v: string): (r: Option<PostType>)
    ensures r.Some? ==> EqIgnoreAsciiCase(v, PostTypeName(r.value))
  {
    if EqIgnoreAsciiCase(v, "Note") then Some(Note)
    else if EqIgnoreAsciiCase(v, "Article") then Some(Article)
    else if EqIgnoreAsciiCase(v, "Like") then Some(Like)
    else if EqIgnoreAsciiCase(v, "Repost") then Some(Repost)
    else if EqIgnoreAsciiCase(v, "Reply") then Some(Reply)
    else None
  }

  /** Parsing the displayed name gives the post type back. */
  lemma ParsePostTypeName(t: PostType)
    ensures ParsePostType(PostTypeName(t)) == Some(t)
  {
    var n := PostTypeName(t);
    assert EqIgnoreAsciiCase(n, n);
    if t == Like {
      assert AsciiLower(n[0]) != AsciiLower("Note"[0]);
    }
  }

  /** One entry of a table of contents. */
  datatype Toc =
    | TocText(text: string)
    | TocHeading(caption: string, anchor: string, subheadings: seq<Toc>)

  datatype ArticleMeta = ArticleMeta(
    title: string,
    postType: PostType,
    blurb: string,
    tags: seq<string>,
    template: string,
    toc: seq<Toc>,
    excludeFromRss: bool,
    hidden: bool,
    updated: Date,
    created: Date,
    ready: bool,
    alwaysRerender: bool,
    mentioners: seq<string>,
    mentions: seq<string>)

  // ---------------------------------------------------------------------------
  // Table-of-contents rendering (`Display for Toc`).
  // ---------------------------------------------------------------------------

  /** One list item: a text entry, a link to a heading, or a link followed by a nested list. */
  function TocHtml(t: Toc): (r: string)
    ensures StartsWith(r, "<li>") && EndsWith(r, "</li>")
    ensures t.TocHeading? ==> (|t.subheadings| > 0 <==> EndsWith(r, "</ul></li>"))
    decreases t
  {
    match t
    case TocText(text) => "<li>" + text + "</li>"
    case TocHeading(caption, anchor, subs) =>
      var link := "<a href=\"#" + anchor + "\">" + caption + "</a>";
      if |subs| == 0 then
        var r := "<li>" + link + "</li>";
        assert r[|r| - 9..] == "</a></li>";
        assert r[|r| - 7] == 'a';
        r
      else
        "<li>" + link + "<ul>" + TocListHtml(subs) + "</ul></li>"
  }

  /** A sequence of entries, rendered one after another with no separator. */
  function TocListHtml(ts: seq<Toc>): (r: string)
    ensures |ts| > 0 ==> StartsWith(r, "<li>") && EndsWith(r, "</li>")
    ensures |ts| == 0 ==> r == ""
    decreases ts
  {
    if |ts| == 0 then ""
    else
      var h := TocHtml(ts[0]);
      var rest := TocListHtml(ts[1..]);
      assert (h + rest)[..4] == h[..4];
      if |ts| > 1 then
        assert (h + rest)[|h + rest| - 5..] == rest[|rest| - 5..];
        h + rest
      else
        assert h + rest == h;
        h + rest
  }

  /** Rendering a list distributes over concatenation of the entries. */
  lemma {:induction false} TocListHtmlAppend(a: seq<Toc>, b: seq<Toc>)
    ensures TocListHtml(a + b) == TocListHtml(a) + TocListHtml(b)
  {
    if |a| == 0 {
      assert a + b == b;
    } else {
      assert (a + b)[1..] == a[1..] + b;
      TocListHtmlAppend(a[1..], b);
    }
  }
}

=== FILE: paths.dfy ===
/** File paths: which files the synchroniser converts, the store key ("logical
    path") it derives from a file path, and the normalisation applied when a
    page is read back by key. */
module Paths {
  import opened Wrappers
  import opened Strs

  /** The characters stripped from the front of a path after the root. */
  const LeadingJunk: set<char> := {'.', '/'}

  /** The index of the last occurrence of `c` in `s`, or -1 when there is none. */
  function LastIndex(s: string, c: char): (r: int)
    ensures -1 <= r < |s|
    ensures r >= 0 ==> s[r] == c
    ensures forall j :: r < j < |s| ==> s[j] != c
  {
    if |s| == 0 then -1
    else if s[|s| - 1] == c then |s| - 1
    else LastIndex(s[..|s| - 1], c)
  }

  /** The last component of a path as the directory walk produces it: the text after
      the last `/` (such paths carry no trailing separator and no `.` components). */
  function FileName(p: string): (r: string)
    ensures EndsWith(p, r)
    ensures '/' !in r
  {
    var i := LastIndex(p, '/');
    assert p[i + 1..] == p[|p| - (|p| - i - 1)..];
    p[i + 1..]
  }

  /** `Path::extension`: the text after the last dot of the file name, except that a name
      without a dot, a name whose only dot is its first character, and `..` have none. */
  function Extension(p: string): (r: Option<string>)
    ensures r.Some? ==> '.' !in r.value && EndsWith(FileName(p), "." + r.value)
  {
    var name := FileName(p);
    if name == ".." then None
    else
      var i := LastIndex(name, '.');
      if i <= 0 then None
      else
        assert name[|name| - |"." + name[i + 1..]|..] == "." + name[i + 1..];
        Some(name[i + 1..])
  }

  /** A path names a Markdown source exactly when it ends in `.md` and that is not the
      whole file name (a hidden file called `.md` has no extension). */
  lemma ExtensionMdIff(p: string)
    ensures Extension(p) == Some("md") <==> EndsWith(p, ".md") && FileName(p) != ".md"
  {
    var name := FileName(p);
    if EndsWith(p, ".md") && name != ".md" {
      var i := LastIndex(p, '/');
      assert p[|p| - 1] == 'd' && p[|p| - 2] == 'm' && p[|p| - 3] == '.';
      assert i < |p| - 3;
      assert |name| >= 3 && name[|name| - 3..] == ".md" by {
        assert name[|name| - 3..] == p[|p| - 3..];
      }
      var k := LastIndex(name, '.');
      assert k == |name| - 3;
      assert name != "..";
      assert name[k + 1..] == "md";
    }
    if Extension(p) == Some("md") {
      assert EndsWith(name, ".md");
      assert name[|name| - 3..] == p[|p| - 3..];
    }
  }

  /** Whether the synchroniser picks a walked entry up: not a directory, extension `md`. */
  predicate IsMarkdownFile(path: string, isDir: bool) {
    !isDir && Extension(path) == Some("md")
  }

  /** The shape every store key has: no leading `.` or `/`, no trailing `.md`. */
  predicate IsKey(k: string) {
    (|k| == 0 || k[0] !in LeadingJunk) && !EndsWith(k, ".md")
  }

  /** The store key of a source file: strip every leading copy of the content root, then
      every leading `.` and `/`, then every trailing `.md`. */
  function LogicalPath(root: string, file: string): (r: string)
    ensures IsKey(r)
  {
    TrimSuffixAll(TrimLeadingChars(TrimPrefixAll(file, root), LeadingJunk), ".md")
  }

  /** The file path is the root (repeated), some dots and slashes, the key, then `.md`
      (repeated): nothing else is dropped and nothing is reordered. */
  lemma LogicalPathSplits(root: string, file: string)
    ensures exists junk: string, n: nat, m: nat ::
      AllJunk(junk) && file == Repeat(root, n) + junk + LogicalPath(root, file) + Repeat(".md", m)
  {
    var junk, n, m := LogicalPathParts(root, file);
  }

  /** The pieces of the split, named. */
  lemma LogicalPathParts(root: string, file: string) returns (junk: string, n: nat, m: nat)
    ensures AllJunk(junk)
    ensures file == Repeat(root, n) + junk + LogicalPath(root, file) + Repeat(".md", m)
  {
    var a := TrimPrefixAll(file, root);
    var b := TrimLeadingChars(a, LeadingJunk);
    var c := TrimSuffixAll(b, ".md");
    assert LogicalPath(root, file) == c;
    n, m := PrefixCopies(file, root), SuffixCopies(b, ".md");
    TrimPrefixAllSplits(file, root);
    TrimSuffixAllSplits(b, ".md");
    junk := a[..|a| - |b|];
    JunkSplit(a, b, junk);
    Regroup(file, Repeat(root, n), a, junk, b, c, Repeat(".md", m));
  }

  lemma Regroup(s: string, w: string, a: string, x: string, b: string, y: string, z: string)
    requires s == w + a && a == x + b && b == y + z
    ensures s == w + x + y + z
  {
  }

  /** Every character of `s` is a dot or a slash. */
  predicate AllJunk(s: string) {
    forall i :: 0 <= i < |s| ==> s[i] in LeadingJunk
  }

  /** A text whose last `|b|` characters are `b` and whose other characters are all junk
      is that junk followed by `b`. */
  lemma JunkSplit(a: string, b: string, junk: string)
    requires |b| <= |a| && b == a[|a| - |b|..] && junk == a[..|a| - |b|]
    requires forall i :: 0 <= i < |a| - |b| ==> a[i] in LeadingJunk
    ensures a == junk + b
    ensures AllJunk(junk)
  {
    assert a == a[..|a| - |b|] + a[|a| - |b|..];
    forall i | 0 <= i < |junk| ensures junk[i] in LeadingJunk {
      assert junk[i] == a[i];
    }
  }

  /** Below the root, one more trailing `.md` on a name that starts with an ordinary
      character makes no difference to the key. */
  lemma {:induction false} ExtraSuffixSameKey(name: string)
    requires |name| > 0 && name[0] !in LeadingJunk
    ensures LogicalPath("", name + ".md") == LogicalPath("", name)
  {
    var full := name + ".md";
    assert full[0] == name[0];
    assert TrimLeadingChars(full, LeadingJunk) == full;
    assert TrimLeadingChars(name, LeadingJunk) == name;
    assert full[..|full| - 3] == name;
  }

  /** Two distinct files can share a key (`a.md` and `a.md.md`, say): the store keeps one
      record for both. */
  lemma LogicalPathCollision(name: string)
    requires |name| > 0 && name[0] !in LeadingJunk
    ensures name + ".md" != name + ".md.md"
    ensures LogicalPath("", name + ".md") == LogicalPath("", name + ".md.md")
  {
    assert name + ".md.md" == (name + ".md") + ".md";
    ExtraSuffixSameKey(name + ".md");
    assert |name + ".md"| != |name + ".md.md"|;
  }

  /** The key a page request is looked up under: leading `.` and `/` and trailing `.md`
      stripped, as when reading a page or its metadata back. */
  function ReadKey(path: string): (r: string)
    ensures IsKey(r)
    ensures |r| <= |path|
  {
    TrimSuffixAll(TrimLeadingChars(path, LeadingJunk), ".md")
  }

  /** A key is its own read key. */
  lemma {:induction false} ReadKeyOfKey(k: string)
    requires IsKey(k)
    ensures ReadKey(k) == k
  {
    assert TrimLeadingChars(k, LeadingJunk) == k;
    assert TrimSuffixAll(k, ".md") == k;
  }

  /** Normalising twice is normalising once. */
  lemma ReadKeyIdempotent(path: string)
    ensures ReadKey(ReadKey(path)) == ReadKey(path)
  {
    ReadKeyOfKey(ReadKey(path));
  }

  /** Looking a page up by the key the synchroniser stored it under finds that key. */
  lemma ReadKeyOfLogicalPath(root: string, file: string)
    ensures ReadKey(LogicalPath(root, file)) == LogicalPath(root, file)
  {
    ReadKeyOfKey(LogicalPath(root, file));
  }
}

=== FILE: queries.dfy ===
/** The search query: date ranges, sort orders, the stored post a search returns,
    and the query record itself. */
module Queries {
  import opened Wrappers
  import opened Strs
  import opened Meta

  /** One end of a date range (`std::ops::Bound`). */
  datatype Bound = Included(d: Date) | Excluded(d: Date) | Unbounded

  /** A pair of bounds, lower then upper. */
  datatype Range = Range(lo: Bound, hi: Bound)

  const Everything: Range := Range(Unbounded, Unbounded)

  /** `RangeBounds::contains` for a pair of bounds. */
  predicate InRange(r: Range, d: Date) {
    (match r.lo
     case Included(x) => x <= d
     case Excluded(x) => x < d
     case Unbounded => true) &&
    (match r.hi
     case Included(x) => d <= x
     case Excluded(x) => d < x
     case Unbounded => true)
  }

  /** The unbounded range holds every date; a bounded range holds exactly its closed, open or
      half-open interval, and a range bounded on one side only is an interval ray. */
  lemma InRangeCases(d: Date, lo: Date, hi: Date)
    ensures InRange(Everything, d)
    ensures InRange(Range(Included(lo), Included(hi)), d) <==> lo <= d <= hi
    ensures InRange(Range(Excluded(lo), Excluded(hi)), d) <==> lo < d < hi
    ensures InRange(Range(Included(lo), Excluded(hi)), d) <==> lo <= d < hi
    ensures InRange(Range(Excluded(lo), Included(hi)), d) <==> lo < d <= hi
    ensures InRange(Range(Included(lo), Unbounded), d) <==> lo <= d
    ensures InRange(Range(Excluded(lo), Unbounded), d) <==> lo < d
    ensures InRange(Range(Unbounded, Included(hi)), d) <==> d <= hi
    ensures InRange(Range(Unbounded, Excluded(hi)), d) <==> d < hi
  {
  }

  datatype SortType = CreateAsc | CreateDesc | UpdateAsc | UpdateDesc | NameAsc | NameDesc

  /** The variant name, as displayed and as written into query strings. */
  function SortTypeName(s: SortType): string {
    match s
    case CreateAsc => "CreateAsc"
    case CreateDesc => "CreateDesc"
    case UpdateAsc => "UpdateAsc"
    case UpdateDesc => "UpdateDesc"
    case NameAsc => "NameAsc"
    case NameDesc => "NameDesc"
  }

  /** Reading a sort order from a form value: the variant whose name matches, ignoring ASCII case. */
  function ParseSortType(v: string): (r: Option<SortType>)
    ensures r.Some? ==> EqIgnoreAsciiCase(v, SortTypeName(r.value))
  {
    if EqIgnoreAsciiCase(v, "CreateAsc") then Some(CreateAsc)
    else if EqIgnoreAsciiCase(v, "CreateDesc") then Some(CreateDesc)
    else if EqIgnoreAsciiCase(v, "UpdateAsc") then Some(UpdateAsc)
    else if EqIgnoreAsciiCase(v, "UpdateDesc") then Some(UpdateDesc)
    else if EqIgnoreAsciiCase(v, "NameAsc") then Some(NameAsc)
    else if EqIgnoreAsciiCase(v, "NameDesc") then Some(NameDesc)
    else None
  }

  /** Parsing the displayed name gives the sort order back. */
  lemma ParseSortTypeName(s: SortType)
    ensures ParseSortType(SortTypeName(s)) == Some(s)
  {
    var n := SortTypeName(s);
    assert EqIgnoreAsciiCase(n, n);
    if s == CreateDesc {
      assert AsciiLower(n[7]) != AsciiLower("CreateAsc"[7]);
    } else if s == UpdateAsc || s == UpdateDesc {
      assert AsciiLower(n[0]) != AsciiLower("CreateAsc"[0]);
      assert AsciiLower(n[0]) != AsciiLower("CreateDesc"[0]);
      if s == UpdateDesc {
        assert AsciiLower(n[7]) != AsciiLower("UpdateAsc"[7]);
      }
    } else if s == NameAsc || s == NameDesc {
      assert AsciiLower(n[0]) != AsciiLower("CreateAsc"[0]);
      assert AsciiLower(n[0]) != AsciiLower("CreateDesc"[0]);
      assert AsciiLower(n[0]) != AsciiLower("UpdateAsc"[0]);
      if s == NameDesc {
        assert AsciiLower(n[5]) != AsciiLower("NameAsc"[5]);
      }
    }
  }

  /** A stored post as a search returns it: its key and its metadata. */
  datatype Post = Post(path: string, meta: ArticleMeta)

  /** A search (the `Search` record). */
  datatype Query = Query(
    searchPath: string,
    excludePaths: seq<string>,
    tags: seq<string>,
    postType: Option<PostType>,
    created: Range,
    updated: Range,
    titleFilter: Option<string>,
    sortType: SortType,
    limit: Option<U32>,
    ignoreHidden: bool)
}

=== FILE: query_string.dfy ===
/** Searches as query strings: the encoder a `Search` is written out with
    (`From<&Search> for Url`), the search form the web routes read
    (`SearchForm`, `DateField`) and the conversion of a form into a search. */
module QueryString {
  import opened Wrappers
  import opened Strs
  import opened Meta
  import opened Queries

  /** One `key=value` parameter, before percent-encoding. */
  type Pair = (string, string)

  const SortTypeKey: string := "sort_type"
  const SearchPathKey: string := "search_path"
  const ExcludePathKey: string := "exclude_path"
  const TagKey: string := "tag"
  const CreatedAfterKey: string := "created_after"
  const CreatedBeforeKey: string := "created_before"
  const UpdatedAfterKey: string := "updated_after"
  const UpdatedBeforeKey: string := "updated_before"
  const TitleFilterKey: string := "title_filter"
  const PostTypeKey: string := "post_type"
  const LimitKey: string := "limit"
  const IgnoreHiddenKey: string := "ignore_hidden"

  /** The values given for `key`, in order. */
  function Values(ps: seq<Pair>, key: string): (r: seq<string>)
    ensures |r| <= |ps|
    ensures forall v :: v in r ==> (key, v) in ps
    ensures r == [] <==> forall i :: 0 <= i < |ps| ==> ps[i].0 != key
  {
    if |ps| == 0 then []
    else
      var rest := Values(ps[1..], key);
      assert forall i :: 1 <= i < |ps| ==> ps[i] == ps[1..][i - 1];
      (if ps[0].0 == key then [ps[0].1] else []) + rest
  }

  /** The value a single-valued form field takes: the first one given. */
  function FirstValue(ps: seq<Pair>, key: string): (r: Option<string>)
    ensures r.Some? ==> (key, r.value) in ps
    ensures r.None? <==> forall i :: 0 <= i < |ps| ==> ps[i].0 != key
  {
    var vs := Values(ps, key);
    if |vs| == 0 then None else Some(vs[0])
  }

  lemma {:induction false} ValuesAppend(a: seq<Pair>, b: seq<Pair>, key: string)
    ensures Values(a + b, key) == Values(a, key) + Values(b, key)
  {
    if |a| == 0 {
      assert a + b == b;
    } else {
      assert (a + b)[1..] == a[1..] + b;
      ValuesAppend(a[1..], b, key);
    }
  }

  lemma {:induction false} WithKeyValues(t: string, vs: seq<string>, key: string)
    ensures Values(WithKey(t, vs), key) == if key == t then vs else []
  {
    if |vs| > 0 {
      WithKeyValues(t, vs[1..], key);
      assert WithKey(t, vs)[1..] == WithKey(t, vs[1..]);
      assert vs == [vs[0]] + vs[1..];
    }
  }

  /** How dates are written and read (`NaiveDate`'s `Display` and `FromStr`). */
  datatype DateCodec = DateCodec(show: Date -> string, parse: string -> Option<Date>)

  /** A date codec whose written form is never empty and reads back to the same date. */
  ghost predicate Faithful(c: DateCodec) {
    forall d :: c.show(d) != "" && c.parse(c.show(d)) == Some(d)
  }

  function OptValues(o: Option<string>): (r: seq<string>)
    ensures |r| <= 1
  {
    if o.Some? then [o.value] else []
  }

  /** The date written for a bound: inclusive and exclusive ends are written alike. */
  function BoundValues(c: DateCodec, b: Bound): (r: seq<string>)
    ensures r == [] <==> b.Unbounded?
  {
    match b
    case Unbounded => []
    case Included(d) => [c.show(d)]
    case Excluded(d) => [c.show(d)]
  }

  // ---------------------------------------------------------------------------
  // The encoder.
  // ---------------------------------------------------------------------------

  /** The parameters written for one field at a time, in the encoder's order. */
  function Fields(c: DateCodec, q: Query): seq<(string, seq<string>)> {
    [(SortTypeKey, [SortTypeName(q.sortType)]),
     (SearchPathKey, if q.searchPath != "" then [q.searchPath] else []),
     (ExcludePathKey, q.excludePaths),
     (TagKey, q.tags),
     (CreatedAfterKey, BoundValues(c, q.created.lo)),
     (CreatedBeforeKey, BoundValues(c, q.created.hi)),
     (UpdatedAfterKey, BoundValues(c, q.updated.lo)),
     (UpdatedBeforeKey, BoundValues(c, q.updated.hi)),
     (TitleFilterKey, OptValues(q.titleFilter)),
     (PostTypeKey, if q.postType.Some? then [PostTypeName(q.postType.value)] else []),
     (LimitKey, if q.limit.Some? then [ShowNat(q.limit.value)] else [])]
  }

  function Flatten(fs: seq<(string, seq<string>)>): seq<Pair> {
    if |fs| == 0 then [] else WithKey(fs[0].0, fs[0].1) + Flatten(fs[1..])
  }

  /** The parameters a search is written as; `ignore_hidden` is never written. */
  function Encode(c: DateCodec, q: Query): (r: seq<Pair>)
    ensures |r| > 0 && r[0] == (SortTypeKey, SortTypeName(q.sortType))
  {
    Flatten(Fields(c, q))
  }

  /** When `k` names exactly one field, its parameters are that field's values. */
  lemma {:induction false} FlattenValuesAt(fs: seq<(string, seq<string>)>, i: nat, k: string)
    requires i < |fs| && fs[i].0 == k
    requires forall j :: 0 <= j < |fs| && j != i ==> fs[j].0 != k
    ensures Values(Flatten(fs), k) == fs[i].1
  {
    ValuesAppend(WithKey(fs[0].0, fs[0].1), Flatten(fs[1..]), k);
    WithKeyValues(fs[0].0, fs[0].1, k);
    if i == 0 {
      FlattenValuesAbsent(fs[1..], k);
    } else {
      FlattenValuesAt(fs[1..], i - 1, k);
    }
  }

  lemma {:induction false} FlattenValuesAbsent(fs: seq<(string, seq<string>)>, k: string)
    requires forall j :: 0 <= j < |fs| ==> fs[j].0 != k
    ensures Values(Flatten(fs), k) == []
  {
    if |fs| > 0 {
      ValuesAppend(WithKey(fs[0].0, fs[0].1), Flatten(fs[1..]), k);
      WithKeyValues(fs[0].0, fs[0].1, k);
      FlattenValuesAbsent(fs[1..], k);
    }
  }

  /** What the encoding holds under each key: the sort order once, the search path only when
      it is not empty, one parameter per excluded path and per tag in their order, a date per
      bounded end whether inclusive or exclusive, and nothing for `ignore_hidden`. */
  lemma EncodeValues(c: DateCodec, q: Query)
    ensures Values(Encode(c, q), SortTypeKey) == [SortTypeName(q.sortType)]
    ensures Values(Encode(c, q), SearchPathKey) == (if q.searchPath != "" then [q.searchPath] else [])
    ensures Values(Encode(c, q), ExcludePathKey) == q.excludePaths
    ensures Values(Encode(c, q), TagKey) == q.tags
    ensures Values(Encode(c, q), CreatedAfterKey) == BoundValues(c, q.created.lo)
    ensures Values(Encode(c, q), CreatedBeforeKey) == BoundValues(c, q.created.hi)
    ensures Values(Encode(c, q), UpdatedAfterKey) == BoundValues(c, q.updated.lo)
    ensures Values(Encode(c, q), UpdatedBeforeKey) == BoundValues(c, q.updated.hi)
    ensures Values(Encode(c, q), TitleFilterKey) == OptValues(q.titleFilter)
    ensures Values(Encode(c, q), PostTypeKey) ==
              (if q.postType.Some? then [PostTypeName(q.postType.value)] else [])
    ensures Values(Encode(c, q), LimitKey) == (if q.limit.Some? then [ShowNat(q.limit.value)] else [])
    ensures Values(Encode(c, q), IgnoreHiddenKey) == []
  {
    EncodeKey(c, q, 0);
    EncodeKey(c, q, 1);
    EncodeKey(c, q, 2);
    EncodeKey(c, q, 3);
    EncodeKey(c, q, 4);
    EncodeKey(c, q, 5);
    EncodeKey(c, q, 6);
    EncodeKey(c, q, 7);
    EncodeKey(c, q, 8);
    EncodeKey(c, q, 9);
    EncodeKey(c, q, 10);
    IgnoreHiddenNotEncoded(c, q);
  }

  lemma IgnoreHiddenNotEncoded(c: DateCodec, q: Query)
    ensures Values(Encode(c, q), IgnoreHiddenKey) == []
  {
    var fs := Fields(c, q);
    forall j | 0 <= j < |fs| ensures fs[j].0 != IgnoreHiddenKey {
      assert fs[j].0 == FieldKeys[j];
    }
    FlattenValuesAbsent(fs, IgnoreHiddenKey);
  }

  /** The keys the encoder writes, one per field and all different. */
  const FieldKeys: seq<string> := [SortTypeKey, SearchPathKey, ExcludePathKey, TagKey,
    CreatedAfterKey, CreatedBeforeKey, UpdatedAfterKey, UpdatedBeforeKey, TitleFilterKey,
    PostTypeKey, LimitKey]

  lemma FieldKeysDistinct(i: nat, j: nat)
    requires i < j < |FieldKeys|
    ensures FieldKeys[i] != FieldKeys[j]
  {
  }

  lemma EncodeKey(c: DateCodec, q: Query, i: nat)
    requires i < |FieldKeys|
    ensures Values(Encode(c, q), FieldKeys[i]) == Fields(c, q)[i].1
  {
    var fs := Fields(c, q);
    assert forall j :: 0 <= j < |fs| ==> fs[j].0 == FieldKeys[j];
    forall j | 0 <= j < |fs| && j != i ensures fs[j].0 != FieldKeys[i] {
      if j < i { FieldKeysDistinct(j, i); } else { FieldKeysDistinct(i, j); }
    }
    FlattenValuesAt(fs, i, FieldKeys[i]);
  }

  // ---------------------------------------------------------------------------
  // The search form.
  // ---------------------------------------------------------------------------

  /** Why a date field is rejected: it was left empty, or it is not a date. */
  datatype FieldError = Missing | Invalid

  /** `DateField::from_value`. */
  function DateFieldFromValue(c: DateCodec, v: string): (r: Result<Date, FieldError>)
    ensures r == Err(Missing) <==> v == ""
    ensures r.Ok? <==> v != "" && c.parse(v).Some?
    ensures r.Ok? ==> c.parse(v) == Some(r.value)
  {
    if v == "" then Err(Missing)
    else match c.parse(v)
      case Some(d) => Ok(d)
      case None => Err(Invalid)
  }

  /** The search form as the routes receive it (`SearchForm`), dates already read. */
  datatype SearchForm = SearchForm(
    searchPath: string,
    excludePath: seq<string>,
    tag: seq<string>,
    createdAfter: Option<Date>,
    createdBefore: Option<Date>,
    updatedAfter: Option<Date>,
    updatedBefore: Option<Date>,
    titleFilter: Option<string>,
    sortType: SortType,
    postType: Option<PostType>,
    limit: Option<U32>)

  /** The value of an optional field. Its inner value is read strictly, so a key given more than
      once is a duplicate and, like a missing key, leaves the field empty. */
  function SoleValue(ps: seq<Pair>, key: string): (r: Option<string>)
    ensures r.Some? <==> |Values(ps, key)| == 1
    ensures r.Some? ==> Values(ps, key) == [r.value] && (key, r.value) in ps
  {
    var vs := Values(ps, key);
    if |vs| == 1 then Some(vs[0]) else None
  }

  /** An optional field: absent, repeated, or a value that does not read, leaves it empty. */
  function OptionalDate(c: DateCodec, ps: seq<Pair>, key: string): (r: Option<Date>)
    ensures r.Some? ==> exists v :: Values(ps, key) == [v] && c.parse(v) == Some(r.value)
    ensures |Values(ps, key)| != 1 ==> r.None?
  {
    match SoleValue(ps, key)
    case None => None
    case Some(v) => DateFieldFromValue(c, v).ToOption()
  }

  function OptionalPostType(ps: seq<Pair>): (r: Option<PostType>)
    ensures r.Some? ==> exists v :: Values(ps, PostTypeKey) == [v] && ParsePostType(v) == r
    ensures |Values(ps, PostTypeKey)| != 1 ==> r.None?
  {
    match SoleValue(ps, PostTypeKey)
    case None => None
    case Some(v) => ParsePostType(v)
  }

  function OptionalLimit(ps: seq<Pair>): (r: Option<U32>)
    ensures r.Some? ==> exists v :: Values(ps, LimitKey) == [v] && ParseU32(v) == r
    ensures |Values(ps, LimitKey)| != 1 ==> r.None?
  {
    match SoleValue(ps, LimitKey)
    case None => None
    case Some(v) => ParseU32(v)
  }

  /** Reading the form from query parameters: a missing `sort_type` defaults to `CreateDesc`
      and one naming no order rejects the form; a missing `search_path` is empty; the list
      fields collect every value in order; for `search_path` and `sort_type` the first value
      counts; an optional field is read only from a key given exactly once, and is left empty
      when its value does not read. Unknown keys are ignored. */
  function ParseForm(c: DateCodec, ps: seq<Pair>): (r: Option<SearchForm>)
    ensures r.None? <==> FirstValue(ps, SortTypeKey).Some? && ParseSortType(FirstValue(ps, SortTypeKey).value).None?
    ensures r.Some? ==> r.value.excludePath == Values(ps, ExcludePathKey) && r.value.tag == Values(ps, TagKey)
    ensures r.Some? ==> (r.value.titleFilter.Some? <==> |Values(ps, TitleFilterKey)| == 1)
    ensures r.Some? && r.value.titleFilter.Some? ==> Values(ps, TitleFilterKey) == [r.value.titleFilter.value]
    ensures r.Some? ==> (|Values(ps, LimitKey)| != 1 ==> r.value.limit.None?) &&
                        (|Values(ps, PostTypeKey)| != 1 ==> r.value.postType.None?) &&
                        (|Values(ps, CreatedAfterKey)| != 1 ==> r.value.createdAfter.None?) &&
                        (|Values(ps, CreatedBeforeKey)| != 1 ==> r.value.createdBefore.None?) &&
                        (|Values(ps, UpdatedAfterKey)| != 1 ==> r.value.updatedAfter.None?) &&
                        (|Values(ps, UpdatedBeforeKey)| != 1 ==> r.value.updatedBefore.None?)
  {
    var sort := match FirstValue(ps, SortTypeKey)
      case None => Some(CreateDesc)
      case Some(v) => ParseSortType(v);
    if sort.None? then None
    else Some(SearchForm(
      FirstValue(ps, SearchPathKey).GetOr(""),
      Values(ps, ExcludePathKey),
      Values(ps, TagKey),
      OptionalDate(c, ps, CreatedAfterKey),
      OptionalDate(c, ps, CreatedBeforeKey),
      OptionalDate(c, ps, UpdatedAfterKey),
      OptionalDate(c, ps, UpdatedBeforeKey),
      SoleValue(ps, TitleFilterKey),
      sort.value,
      OptionalPostType(ps),
      OptionalLimit(ps)))
  }

  /** A bound from an optional form date: a given date is an inclusive end. */
  function AtLeast(d: Option<Date>): (b: Bound)
    ensures b.Excluded? == false
    ensures b.Unbounded? <==> d.None?
  {
    if d.Some? then Included(d.value) else Unbounded
  }

  function DateOf(b: Bound): Option<Date> {
    match b
    case Included(d) => Some(d)
    case Excluded(d) => Some(d)
    case Unbounded => None
  }

  /** `From<&SearchForm> for Search`: the list, text and enum fields are copied, the dates
      become inclusive bounds, and hidden posts are never asked for. */
  function FromForm(f: SearchForm): (q: Query) {
    Query(
      f.searchPath, f.excludePath, f.tag, f.postType,
      Range(AtLeast(f.createdAfter), AtLeast(f.createdBefore)),
      Range(AtLeast(f.updatedAfter), AtLeast(f.updatedBefore)),
      f.titleFilter, f.sortType, f.limit, false)
  }

  /** The form a search would have been read from. */
  function ToForm(q: Query): SearchForm {
    SearchForm(
      q.searchPath, q.excludePaths, q.tags,
      DateOf(q.created.lo), DateOf(q.created.hi), DateOf(q.updated.lo), DateOf(q.updated.hi),
      q.titleFilter, q.sortType, q.postType, q.limit)
  }

  /** A search a form can express: no exclusive bound and hidden posts not asked for. */
  predicate FromSomeForm(q: Query) {
    !q.created.lo.Excluded? && !q.created.hi.Excluded? &&
    !q.updated.lo.Excluded? && !q.updated.hi.Excluded? && !q.ignoreHidden
  }

  /** Forms and the searches they express correspond one to one. */
  lemma FormQueryBijection(f: SearchForm, q: Query)
    ensures FromSomeForm(FromForm(f))
    ensures ToForm(FromForm(f)) == f
    ensures FromSomeForm(q) ==> FromForm(ToForm(q)) == q
  {
  }

  /** Reading back the parameters a search is written as gives the form it corresponds to:
      for a search built from a form, the form itself. */
  lemma ParseEncode(c: DateCodec, q: Query)
    requires Faithful(c)
    ensures ParseForm(c, Encode(c, q)) == Some(ToForm(q))
  {
    var e := Encode(c, q);
    EncodeValues(c, q);
    ParseSortTypeName(q.sortType);
    if q.postType.Some? {
      ParsePostTypeName(q.postType.value);
    }
    if q.limit.Some? {
      ParseU32ShowNat(q.limit.value);
    }
    BoundRoundTrip(c, e, CreatedAfterKey, q.created.lo);
    BoundRoundTrip(c, e, CreatedBeforeKey, q.created.hi);
    BoundRoundTrip(c, e, UpdatedAfterKey, q.updated.lo);
    BoundRoundTrip(c, e, UpdatedBeforeKey, q.updated.hi);
  }

  lemma BoundRoundTrip(c: DateCodec, ps: seq<Pair>, key: string, b: Bound)
    requires Faithful(c)
    requires Values(ps, key) == BoundValues(c, b)
    ensures OptionalDate(c, ps, key) == DateOf(b)
  {
    if !b.Unbounded? {
      assert c.show(b.d) != "" && c.parse(c.show(b.d)) == Some(b.d);
    }
  }

  /** The round trip through the query string: a form becomes a search, the search is written
      out, and reading the parameters back gives the same form and so the same search. */
  lemma FormRoundTrip(c: DateCodec, f: SearchForm)
    requires Faithful(c)
    ensures ParseForm(c, Encode(c, FromForm(f))) == Some(f)
    ensures FromForm(ParseForm(c, Encode(c, FromForm(f))).value) == FromForm(f)
  {
    ParseEncode(c, FromForm(f));
    FormQueryBijection(f, FromForm(f));
  }

  /** What the query string loses: an exclusive bound reads back as an inclusive one, and a
      search that shows hidden posts reads back as one that does not. */
  lemma EncodeLossy(c: DateCodec, q: Query, d: Date)
    requires Faithful(c)
    requires q.created.lo == Excluded(d) || q.ignoreHidden
    ensures var back := FromForm(ParseForm(c, Encode(c, q)).value);
      back != q && !back.ignoreHidden &&
      (q.created.lo == Excluded(d) ==> back.created.lo == Included(d))
  {
    ParseEncode(c, q);
  }
}

=== FILE: search.dfy ===
/** The post search (`db::search`): the store selects rows by path prefix, title substring
    and tags, keeps at most `LIMIT` of them, and the program then drops hidden, excluded,
    out-of-range and wrongly-typed posts and sorts what is left. */
module Search {
  import opened Wrappers
  import opened Strs
  import opened Meta
  import opened Queries
  import opened Sorting

  // ---------------------------------------------------------------------------
  // The two filters.
  // ---------------------------------------------------------------------------

  /** The condition the store evaluates: the path starts with the search path, the title
      contains the title filter (the empty string when there is none) and the post carries
      every requested tag. */
  predicate StoreMatch(q: Query, p: Post) {
    StartsWith(p.path, q.searchPath) &&
    Contains(p.meta.title, q.titleFilter.GetOr("")) &&
    forall t :: t in q.tags ==> t in p.meta.tags
  }

  /** The conditions the program checks after the store returns: visibility, excluded
      prefixes, both date ranges and the post type. */
  predicate AppMatch(q: Query, p: Post) {
    (!p.meta.hidden || q.ignoreHidden) &&
    (forall x :: x in q.excludePaths ==> !StartsWith(p.path, x)) &&
    InRange(q.created, p.meta.created) &&
    InRange(q.updated, p.meta.updated) &&
    (q.postType.None? || q.postType.value == p.meta.postType)
  }

  /** The rows the store selects, in the order it visits them. */
  function StoreFilter(q: Query, rows: seq<Post>): (r: seq<Post>)
    ensures |r| <= |rows|
    ensures forall p :: p in r <==> p in rows && StoreMatch(q, p)
  {
    if |rows| == 0 then []
    else (if StoreMatch(q, rows[0]) then [rows[0]] else []) + StoreFilter(q, rows[1..])
  }

  function AppFilter(q: Query, rows: seq<Post>): (r: seq<Post>)
    ensures |r| <= |rows|
    ensures forall p :: p in r <==> p in rows && AppMatch(q, p)
  {
    if |rows| == 0 then []
    else (if AppMatch(q, rows[0]) then [rows[0]] else []) + AppFilter(q, rows[1..])
  }

  /** Every row that satisfies both filters, in row order: the reference for what a search
      finds when nothing is cut off. */
  function Matching(q: Query, rows: seq<Post>): seq<Post> {
    if |rows| == 0 then []
    else (if StoreMatch(q, rows[0]) && AppMatch(q, rows[0]) then [rows[0]] else []) +
         Matching(q, rows[1..])
  }

  /** Applying the program's filter to the store's selection is filtering once by both. */
  lemma {:induction false} FiltersCompose(q: Query, rows: seq<Post>)
    ensures AppFilter(q, StoreFilter(q, rows)) == Matching(q, rows)
  {
    if |rows| > 0 {
      FiltersCompose(q, rows[1..]);
      var head := if StoreMatch(q, rows[0]) then [rows[0]] else [];
      AppFilterAppend(q, head, StoreFilter(q, rows[1..]));
    }
  }

  lemma {:induction false} AppFilterAppend(q: Query, a: seq<Post>, b: seq<Post>)
    ensures AppFilter(q, a + b) == AppFilter(q, a) + AppFilter(q, b)
  {
    if |a| > 0 {
      assert (a + b)[1..] == a[1..] + b;
      AppFilterAppend(q, a[1..], b);
    } else {
      assert a + b == b;
    }
  }

  // ---------------------------------------------------------------------------
  // The LIMIT.
  // ---------------------------------------------------------------------------

  const I32Max: int := 0x7FFF_FFFF

  /** How the requested `u32` limit becomes the store's signed 32-bit `LIMIT`. The program
      casts with `as i32`, which wraps limits of 2^31 and more to negative numbers;
      `Clamped` saturates at the largest `i32` instead. */
  datatype LimitCast = AsWritten | Clamped

  /** The `LIMIT` the store receives: the requested limit, or `i32::MAX` when there is none,
      converted as `cast` says. */
  function SqlLimit(cast: LimitCast, limit: Option<U32>): (r: int)
    ensures -0x8000_0000 <= r <= I32Max
    ensures limit.None? ==> r == I32Max
    ensures limit.Some? && limit.value <= I32Max ==> r == limit.value
    ensures cast == AsWritten && limit.Some? && limit.value > I32Max ==> r == limit.value - U32Limit
    ensures cast == Clamped ==> r >= 0
  {
    var l := limit.GetOr(I32Max);
    match cast
    case AsWritten => if l > I32Max then l - U32Limit else l
    case Clamped => if l > I32Max then I32Max else l
  }

  /** The first `n` elements, or all of them when there are fewer. */
  function Take(xs: seq<Post>, n: nat): (r: seq<Post>)
    ensures |r| <= n && |r| <= |xs|
    ensures |xs| <= n ==> r == xs
    ensures r <= xs
  {
    if |xs| <= n then xs else xs[..n]
  }

  /** Why a search fails: the store rejects a negative `LIMIT`. */
  datatype SearchError = NegativeLimit

  /** The whole search. `rows` holds the stored posts in the order the store happens to visit
      them (no `ORDER BY` is given, so that order is not the program's to choose). */
  function RunSearch(cast: LimitCast, rows: seq<Post>, q: Query): (r: Result<seq<Post>, SearchError>)
    ensures r.Err? <==> SqlLimit(cast, q.limit) < 0
  {
    var lim := SqlLimit(cast, q.limit);
    if lim < 0 then Err(NegativeLimit)
    else Ok(SortBy(q.sortType, AppFilter(q, Take(StoreFilter(q, rows), lim))))
  }

  /** The search the rest of the model uses, with the limit clamped. */
  function SearchPosts(rows: seq<Post>, q: Query): (r: Result<seq<Post>, SearchError>)
    ensures r.Ok?
  {
    RunSearch(Clamped, rows, q)
  }

  // ---------------------------------------------------------------------------
  // What a search returns.
  // ---------------------------------------------------------------------------

  /** Everything returned is a stored post satisfying both filters; there are no more of them
      than the limit; they are in the requested order. */
  lemma SearchSound(cast: LimitCast, rows: seq<Post>, q: Query)
    requires RunSearch(cast, rows, q).Ok?
    ensures var r := RunSearch(cast, rows, q).value;
      (forall p :: p in r ==> p in rows && StoreMatch(q, p) && AppMatch(q, p)) &&
      |r| <= SqlLimit(cast, q.limit) &&
      Sorted(q.sortType, r)
  {
    var lim := SqlLimit(cast, q.limit);
    var taken := Take(StoreFilter(q, rows), lim);
    var kept := AppFilter(q, taken);
    var r := RunSearch(cast, rows, q).value;
    forall p | p in r ensures p in rows && StoreMatch(q, p) && AppMatch(q, p) {
      assert p in multiset(r);
      assert p in kept;
      var i :| 0 <= i < |taken| && taken[i] == p;
      assert p in StoreFilter(q, rows);
    }
  }

  /** When the store has no more matching rows than the limit, the search returns exactly the
      posts satisfying both filters (counted with multiplicity), and posts that sort equal
      stay in row order. */
  lemma SearchComplete(cast: LimitCast, rows: seq<Post>, q: Query, x: Post)
    requires 0 <= SqlLimit(cast, q.limit)
    requires |StoreFilter(q, rows)| <= SqlLimit(cast, q.limit)
    ensures multiset(RunSearch(cast, rows, q).value) == multiset(Matching(q, rows))
    ensures EqualTo(q.sortType, x, RunSearch(cast, rows, q).value) ==
              EqualTo(q.sortType, x, Matching(q, rows))
  {
    FiltersCompose(q, rows);
    SortByStable(q.sortType, x, Matching(q, rows));
  }

  /** The limit applies before visibility and the other program-side conditions: a hidden
      post can use up the limit and push out a visible one that matches everything. */
  lemma LimitBeforeFilters(hiddenPost: Post, shown: Post, q: Query)
    requires hiddenPost.meta.hidden && !q.ignoreHidden && StoreMatch(q, hiddenPost)
    requires StoreMatch(q, shown) && AppMatch(q, shown)
    requires q.limit == Some(1)
    ensures shown in Matching(q, [hiddenPost, shown])
    ensures SearchPosts([hiddenPost, shown], q) == Ok([])
  {
    var rows := [hiddenPost, shown];
    assert rows[1..] == [shown];
    assert Take(StoreFilter(q, rows), 1) == [hiddenPost];
    assert [hiddenPost][1..] == [];
  }

  // ---------------------------------------------------------------------------
  // The limit cast.
  // ---------------------------------------------------------------------------

  /** As written, any limit from 2^31 up wraps to a negative `LIMIT` and the search fails,
      whatever is stored. */
  lemma WrappedLimitFails(rows: seq<Post>, q: Query)
    requires q.limit.Some? && q.limit.value > I32Max
    ensures SqlLimit(AsWritten, q.limit) < 0
    ensures RunSearch(AsWritten, rows, q) == Err(NegativeLimit)
  {
  }

  /** With the clamped cast no search fails, the `LIMIT` never exceeds the requested limit,
      and it equals the request whenever the request fits in an `i32`. */
  lemma ClampedLimitNeverFails(rows: seq<Post>, q: Query)
    ensures RunSearch(Clamped, rows, q).Ok?
    ensures q.limit.Some? ==> SqlLimit(Clamped, q.limit) <= q.limit.value
    ensures q.limit.Some? && q.limit.value <= I32Max ==> SqlLimit(Clamped, q.limit) == q.limit.value
    ensures forall l: U32 :: l <= I32Max ==> SqlLimit(AsWritten, Some(l)) == SqlLimit(Clamped, Some(l))
  {
  }
}

=== FILE: sorting.dfy ===
/** The orders a search can be sorted by, and the stable sort applied to its results. */
module Sorting {
  import opened Wrappers
  import Strs
  import opened Meta
  import opened Queries

  /** The comparator of each sort order (`SortType::sort_fn`): by creation date, update date
      or title, and each descending order with its arguments swapped. */
  function Cmp(st: SortType, a: Post, b: Post): Ordering {
    match st
    case CreateAsc => CompareInt(a.meta.created, b.meta.created)
    case CreateDesc => CompareInt(b.meta.created, a.meta.created)
    case UpdateAsc => CompareInt(a.meta.updated, b.meta.updated)
    case UpdateDesc => CompareInt(b.meta.updated, a.meta.updated)
    case NameAsc => Strs.Compare(a.meta.title, b.meta.title)
    case NameDesc => Strs.Compare(b.meta.title, a.meta.title)
  }

  /** The ascending order a descending one reverses. */
  function AscendingOf(st: SortType): SortType {
    match st
    case CreateDesc => CreateAsc
    case UpdateDesc => UpdateAsc
    case NameDesc => NameAsc
    case _ => st
  }

  predicate IsDescending(st: SortType) {
    st == CreateDesc || st == UpdateDesc || st == NameDesc
  }

  /** Each descending order is the exact reverse of its ascending order. */
  lemma DescendingReverses(st: SortType, a: Post, b: Post)
    requires IsDescending(st)
    ensures Cmp(st, a, b) == Cmp(AscendingOf(st), b, a)
    ensures Cmp(st, a, b) == Cmp(AscendingOf(st), a, b).Flip()
  {
    Strs.CompareFlip(a.meta.title, b.meta.title);
  }

  /** Swapping the arguments flips the outcome. */
  lemma CmpFlip(st: SortType, a: Post, b: Post)
    ensures Cmp(st, b, a) == Cmp(st, a, b).Flip()
  {
    Strs.CompareFlip(a.meta.title, b.meta.title);
  }

  /** "Not after" is transitive, so every comparator is a total preorder. */
  lemma CmpTransitive(st: SortType, a: Post, b: Post, c: Post)
    requires Cmp(st, a, b) != Greater && Cmp(st, b, c) != Greater
    ensures Cmp(st, a, c) != Greater
  {
    match st
    case NameAsc => Strs.CompareTransitive(a.meta.title, b.meta.title, c.meta.title);
    case NameDesc => Strs.CompareTransitive(c.meta.title, b.meta.title, a.meta.title);
    case _ =>
  }

  predicate Sorted(st: SortType, xs: seq<Post>) {
    forall i, j :: 0 <= i < j < |xs| ==> Cmp(st, xs[i], xs[j]) != Greater
  }

  /** Puts `p` into a sorted list after every element that does not sort after it. */
  function Insert(st: SortType, p: Post, xs: seq<Post>): (r: seq<Post>)
    ensures |r| == |xs| + 1
    ensures multiset(r) == multiset(xs) + multiset{p}
  {
    if |xs| == 0 then [p]
    else if Cmp(st, xs[0], p) == Greater then [p] + xs
    else
      assert xs == [xs[0]] + xs[1..];
      [xs[0]] + Insert(st, p, xs[1..])
  }

  /** A sorted list stays sorted under a new head that sorts before all its elements. */
  lemma ConsSorted(st: SortType, y: Post, xs: seq<Post>)
    requires Sorted(st, xs)
    requires forall k :: 0 <= k < |xs| ==> Cmp(st, y, xs[k]) != Greater
    ensures Sorted(st, [y] + xs)
  {
    var r := [y] + xs;
    forall i, j | 0 <= i < j < |r| ensures Cmp(st, r[i], r[j]) != Greater {
      if i > 0 {
        assert r[i] == xs[i - 1] && r[j] == xs[j - 1];
      } else {
        assert r[j] == xs[j - 1];
      }
    }
  }

  /** In a sorted list, what sorts before the head sorts before every element. */
  lemma BeforeHead(st: SortType, y: Post, xs: seq<Post>)
    requires Sorted(st, xs) && |xs| > 0 && Cmp(st, y, xs[0]) != Greater
    ensures forall k :: 0 <= k < |xs| ==> Cmp(st, y, xs[k]) != Greater
  {
    forall k | 0 < k < |xs| ensures Cmp(st, y, xs[k]) != Greater {
      CmpTransitive(st, y, xs[0], xs[k]);
    }
  }

  /** Inserting keeps a list sorted. */
  lemma {:induction false} InsertSorted(st: SortType, p: Post, xs: seq<Post>)
    requires Sorted(st, xs)
    ensures Sorted(st, Insert(st, p, xs))
  {
    if |xs| > 0 {
      if Cmp(st, xs[0], p) == Greater {
        CmpFlip(st, xs[0], p);
        BeforeHead(st, p, xs);
        ConsSorted(st, p, xs);
      } else {
        var tail := xs[1..];
        assert Sorted(st, tail);
        InsertSorted(st, p, tail);
        var rest := Insert(st, p, tail);
        forall k | 0 <= k < |rest| ensures Cmp(st, xs[0], rest[k]) != Greater {
          var y := rest[k];
          assert y in multiset(rest);
          if y != p {
            assert y in multiset(tail);
            var m :| 0 <= m < |tail| && tail[m] == y;
            assert xs[m + 1] == y;
          }
        }
        ConsSorted(st, xs[0], rest);
      }
    }
  }

  /** The stable sort: the elements are inserted in their original order, so equal elements
      keep their relative order. */
  function SortBy(st: SortType, xs: seq<Post>): (r: seq<Post>)
    ensures multiset(r) == multiset(xs)
    ensures |r| == |xs|
    ensures Sorted(st, r)
  {
    if |xs| == 0 then []
    else
      var init := xs[..|xs| - 1];
      assert xs == init + [xs[|xs| - 1]];
      InsertSorted(st, xs[|xs| - 1], SortBy(st, init));
      Insert(st, xs[|xs| - 1], SortBy(st, init))
  }

  /** The elements of `xs` that sort equal to `x`, in their order. */
  function EqualTo(st: SortType, x: Post, xs: seq<Post>): seq<Post> {
    if |xs| == 0 then []
    else (if Cmp(st, xs[0], x) == Equal then [xs[0]] else []) + EqualTo(st, x, xs[1..])
  }

  lemma {:induction false} EqualToSnoc(st: SortType, x: Post, xs: seq<Post>, y: Post)
    ensures EqualTo(st, x, xs + [y]) == EqualTo(st, x, xs) + (if Cmp(st, y, x) == Equal then [y] else [])
  {
    if |xs| == 0 {
      assert xs + [y] == [y];
    } else {
      assert (xs + [y])[1..] == xs[1..] + [y];
      EqualToSnoc(st, x, xs[1..], y);
    }
  }

  /** Elements equal to each other sort the same way against a third. */
  lemma EqualSameSide(st: SortType, a: Post, b: Post, c: Post)
    requires Cmp(st, a, b) == Equal
    ensures Cmp(st, a, c) == Cmp(st, b, c)
  {
    CmpFlip(st, a, b);
    CmpFlip(st, a, c);
    CmpFlip(st, b, c);
    if Cmp(st, b, c) != Greater {
      CmpTransitive(st, a, b, c);
    }
    if Cmp(st, a, c) != Greater {
      CmpTransitive(st, b, a, c);
    }
    if Cmp(st, c, b) != Greater {
      CmpTransitive(st, c, b, a);
    }
    if Cmp(st, c, a) != Greater {
      CmpTransitive(st, c, a, b);
    }
  }

  /** Inserting `p` puts it after every element already present that sorts equal to it. */
  lemma {:induction false} InsertStable(st: SortType, x: Post, p: Post, xs: seq<Post>)
    requires Sorted(st, xs)
    ensures EqualTo(st, x, Insert(st, p, xs)) ==
              EqualTo(st, x, xs) + (if Cmp(st, p, x) == Equal then [p] else [])
  {
    if |xs| == 0 {
    } else if Cmp(st, xs[0], p) == Greater {
      InsertBeforeStable(st, x, p, xs);
    } else {
      var tail := xs[1..];
      assert Sorted(st, tail);
      InsertStable(st, x, p, tail);
      InsertAfterStable(st, x, p, xs);
    }
  }

  lemma InsertAfterStable(st: SortType, x: Post, p: Post, xs: seq<Post>)
    requires |xs| > 0 && Cmp(st, xs[0], p) != Greater
    requires EqualTo(st, x, Insert(st, p, xs[1..])) ==
               EqualTo(st, x, xs[1..]) + (if Cmp(st, p, x) == Equal then [p] else [])
    ensures EqualTo(st, x, Insert(st, p, xs)) ==
              EqualTo(st, x, xs) + (if Cmp(st, p, x) == Equal then [p] else [])
  {
    var r := Insert(st, p, xs);
    var e := if Cmp(st, xs[0], x) == Equal then [xs[0]] else [];
    var q := if Cmp(st, p, x) == Equal then [p] else [];
    assert r[0] == xs[0] && r[1..] == Insert(st, p, xs[1..]);
    assert EqualTo(st, x, r) == e + EqualTo(st, x, r[1..]);
    assert EqualTo(st, x, xs) == e + EqualTo(st, x, xs[1..]);
  }

  lemma InsertBeforeStable(st: SortType, x: Post, p: Post, xs: seq<Post>)
    requires Sorted(st, xs) && |xs| > 0 && Cmp(st, xs[0], p) == Greater
    ensures EqualTo(st, x, Insert(st, p, xs)) ==
              EqualTo(st, x, xs) + (if Cmp(st, p, x) == Equal then [p] else [])
  {
    var r := Insert(st, p, xs);
    assert r[0] == p && r[1..] == xs;
    if Cmp(st, p, x) == Equal {
      NoneEqualAfter(st, x, p, xs);
    }
  }

  /** When `p` sorts before the head of a sorted list and equal to `x`, nothing in the list
      sorts equal to `x`. */
  lemma NoneEqualAfter(st: SortType, x: Post, p: Post, xs: seq<Post>)
    requires Sorted(st, xs) && |xs| > 0 && Cmp(st, xs[0], p) == Greater && Cmp(st, p, x) == Equal
    ensures EqualTo(st, x, xs) == []
  {
    forall k | 0 <= k < |xs| ensures Cmp(st, xs[k], x) != Equal {
      if k > 0 {
        assert Cmp(st, xs[0], xs[k]) != Greater;
        if Cmp(st, xs[k], p) != Greater {
          CmpTransitive(st, xs[0], xs[k], p);
        }
      }
      CmpFlip(st, p, x);
      EqualSameSide(st, x, p, xs[k]);
      CmpFlip(st, x, xs[k]);
      CmpFlip(st, p, xs[k]);
    }
    NoneEqual(st, x, xs);
  }

  lemma {:induction false} NoneEqual(st: SortType, x: Post, xs: seq<Post>)
    requires forall k :: 0 <= k < |xs| ==> Cmp(st, xs[k], x) != Equal
    ensures EqualTo(st, x, xs) == []
    decreases |xs|
  {
    if |xs| > 0 {
      NoneEqual(st, x, xs[1..]);
    }
  }

  /** Stability: for every element, the elements that sort equal to it appear in the
      output in the same order as in the input. */
  lemma {:induction false} SortByStable(st: SortType, x: Post, xs: seq<Post>)
    ensures EqualTo(st, x, SortBy(st, xs)) == EqualTo(st, x, xs)
    decreases |xs|
  {
    if |xs| > 0 {
      var init := xs[..|xs| - 1];
      SortByStable(st, x, init);
      SortBySnoc(st, xs);
      StableStep(st, x, xs, SortBy(st, init));
    }
  }

  /** One insertion step of the sort keeps the elements equal to `x` in input order. */
  lemma StableStep(st: SortType, x: Post, xs: seq<Post>, sorted: seq<Post>)
    requires |xs| > 0 && Sorted(st, sorted)
    requires EqualTo(st, x, sorted) == EqualTo(st, x, xs[..|xs| - 1])
    ensures EqualTo(st, x, Insert(st, xs[|xs| - 1], sorted)) == EqualTo(st, x, xs)
  {
    var init, last := xs[..|xs| - 1], xs[|xs| - 1];
    InsertStable(st, x, last, sorted);
    EqualToSnoc(st, x, init, last);
    assert xs == init + [last];
  }

  /** The sort of a non-empty list inserts its last element into the sort of the rest. */
  lemma SortBySnoc(st: SortType, xs: seq<Post>)
    requires |xs| > 0
    ensures SortBy(st, xs) == Insert(st, xs[|xs| - 1], SortBy(st, xs[..|xs| - 1]))
  {
  }
}

=== FILE: strs.dfy ===
/** String helpers with the semantics of the Rust `str` methods the program calls:
    prefix/suffix tests, the `trim_*_matches` family, substring search,
    lexicographic comparison and the decimal form of `u32`. */
module Strs {
  import opened Wrappers

  predicate StartsWith(s: string, p: string) {
    |p| <= |s| && s[..|p|] == p
  }

  predicate EndsWith(s: string, p: string) {
    |p| <= |s| && s[|s| - |p|..] == p
  }

  /** `p` concatenated with itself `n` times. */
  function Repeat(p: string, n: nat): string {
    if n == 0 then [] else p + Repeat(p, n - 1)
  }

  /** `str::trim_start_matches(p)` for a string pattern: strips every leading copy of `p`.
      An empty pattern strips nothing. */
  function TrimPrefixAll(s: string, p: string): (r: string)
    ensures |r| <= |s| && r == s[|s| - |r|..]
    ensures p != [] ==> !StartsWith(r, p)
    ensures p == [] ==> r == s
    decreases |s|
  {
    if p != [] && StartsWith(s, p) then TrimPrefixAll(s[|p|..], p) else s
  }

  /** How many copies of `p` `TrimPrefixAll` removes. */
  function PrefixCopies(s: string, p: string): nat
    decreases |s|
  {
    if p != [] && StartsWith(s, p) then 1 + PrefixCopies(s[|p|..], p) else 0
  }

  lemma RepeatCons(p: string, n: nat, t: string, r: string)
    requires t == Repeat(p, n) + r
    ensures p + t == Repeat(p, n + 1) + r
  {
    assert Repeat(p, n + 1) == p + Repeat(p, n);
  }

  /** `TrimPrefixAll` removes whole copies of the pattern and nothing else. */
  lemma {:induction false} TrimPrefixAllSplits(s: string, p: string)
    ensures s == Repeat(p, PrefixCopies(s, p)) + TrimPrefixAll(s, p)
    decreases |s|
  {
    if p != [] && StartsWith(s, p) {
      var t := s[|p|..];
      TrimPrefixAllSplits(t, p);
      assert s == p + t;
      assert TrimPrefixAll(s, p) == TrimPrefixAll(t, p);
      assert PrefixCopies(s, p) == PrefixCopies(t, p) + 1;
      RepeatCons(p, PrefixCopies(t, p), t, TrimPrefixAll(t, p));
    } else {
      assert Repeat(p, 0) == [];
    }
  }

  /** `str::trim_end_matches(p)` for a string pattern: strips every trailing copy of `p`.
      An empty pattern strips nothing. */
  function TrimSuffixAll(s: string, p: string): (r: string)
    ensures |r| <= |s| && r == s[..|r|]
    ensures p != [] ==> !EndsWith(r, p)
    ensures p == [] ==> r == s
    decreases |s|
  {
    if p != [] && EndsWith(s, p) then TrimSuffixAll(s[..|s| - |p|], p) else s
  }

  /** How many copies of `p` `TrimSuffixAll` removes. */
  function SuffixCopies(s: string, p: string): nat
    decreases |s|
  {
    if p != [] && EndsWith(s, p) then 1 + SuffixCopies(s[..|s| - |p|], p) else 0
  }

  lemma {:induction false} RepeatSnoc(p: string, n: nat)
    ensures Repeat(p, n) + p == p + Repeat(p, n)
  {
    if n > 0 {
      RepeatSnoc(p, n - 1);
      calc {
        Repeat(p, n) + p;
        p + Repeat(p, n - 1) + p;
        p + (Repeat(p, n - 1) + p);
        p + (p + Repeat(p, n - 1));
      }
    }
  }

  /** `TrimSuffixAll` removes whole copies of the pattern and nothing else. */
  lemma {:induction false} TrimSuffixAllSplits(s: string, p: string)
    ensures s == TrimSuffixAll(s, p) + Repeat(p, SuffixCopies(s, p))
    decreases |s|
  {
    if p != [] && EndsWith(s, p) {
      var t := s[..|s| - |p|];
      TrimSuffixAllSplits(t, p);
      var n := SuffixCopies(t, p);
      assert s == t + p;
      assert TrimSuffixAll(s, p) == TrimSuffixAll(t, p);
      assert SuffixCopies(s, p) == n + 1;
      assert Repeat(p, n + 1) == p + Repeat(p, n);
      RepeatSnoc(p, n);
      calc {
        TrimSuffixAll(s, p) + Repeat(p, n + 1);
        TrimSuffixAll(t, p) + (p + Repeat(p, n));
        TrimSuffixAll(t, p) + (Repeat(p, n) + p);
        (TrimSuffixAll(t, p) + Repeat(p, n)) + p;
        t + p;
      }
    }
  }

  /** One trailing copy of the pattern after text that does not end with it is trimmed
      back to that text. */
  lemma TrimSuffixAllOnce(s: string, p: string)
    requires p != [] && !EndsWith(s, p)
    ensures TrimSuffixAll(s + p, p) == s
  {
    var t := s + p;
    assert t[|t| - |p|..] == p;
    assert t[..|t| - |p|] == s;
  }

  /** `str::trim_start_matches` with a set of characters. */
  function TrimLeadingChars(s: string, cs: set<char>): (r: string)
    ensures |r| <= |s| && r == s[|s| - |r|..]
    ensures |r| == 0 || r[0] !in cs
    ensures forall i :: 0 <= i < |s| - |r| ==> s[i] in cs
    decreases |s|
  {
    if |s| > 0 && s[0] in cs then
      var r := TrimLeadingChars(s[1..], cs);
      assert s[1..][|s| - 1 - |r|..] == s[|s| - |r|..];
      assert forall i :: 1 <= i < |s| - |r| ==> s[i] == s[1..][i - 1];
      r
    else s
  }

  /** `str::trim_end_matches` with a single character. */
  function TrimTrailingChar(s: string, c: char): (r: string)
    ensures |r| <= |s| && r == s[..|r|]
    ensures |r| == 0 || r[|r| - 1] != c
    ensures forall i :: |r| <= i < |s| ==> s[i] == c
    decreases |s|
  {
    if |s| > 0 && s[|s| - 1] == c then TrimTrailingChar(s[..|s| - 1], c) else s
  }

  /** One trailing `c` after text that does not end with `c` is trimmed back to that text. */
  lemma TrimTrailingCharOnce(s: string, c: char)
    requires |s| > 0 && s[|s| - 1] != c
    ensures TrimTrailingChar(s + [c], c) == s
  {
    var t := s + [c];
    assert t[..|t| - 1] == s;
  }

  /** `sub` occurs somewhere inside `s` (what `LIKE '%sub%'` tests, without wildcards). */
  predicate Contains(s: string, sub: string)
    decreases |s|
  {
    StartsWith(s, sub) || (|s| > 0 && Contains(s[1..], sub))
  }

  /** `sub` occurs in `s` starting at index `i`. */
  predicate OccursAt(s: string, sub: string, i: int) {
    0 <= i <= |s| - |sub| && s[i..i + |sub|] == sub
  }

  /** `Contains` agrees with the positional definition of a substring occurrence. */
  lemma {:induction false} ContainsIff(s: string, sub: string)
    ensures Contains(s, sub) <==> exists i :: OccursAt(s, sub, i)
    decreases |s|
  {
    if StartsWith(s, sub) {
      assert OccursAt(s, sub, 0);
    } else if |s| > 0 {
      ContainsIff(s[1..], sub);
      if exists i :: OccursAt(s, sub, i) {
        var i :| OccursAt(s, sub, i);
        assert i != 0;
        assert s[1..][i - 1..i - 1 + |sub|] == s[i..i + |sub|];
        assert OccursAt(s[1..], sub, i - 1);
      }
      if Contains(s[1..], sub) {
        var j :| OccursAt(s[1..], sub, j);
        assert s[j + 1..j + 1 + |sub|] == s[1..][j..j + |sub|];
        assert OccursAt(s, sub, j + 1);
      }
    }
  }

  /** Lexicographic comparison by code point, which is how Rust orders `String`s
      (byte-wise UTF-8 order coincides with code-point order). */
  function Compare(a: string, b: string): Ordering
  {
    if |a| == 0 then (if |b| == 0 then Equal else Less)
    else if |b| == 0 then Greater
    else if a[0] < b[0] then Less
    else if a[0] > b[0] then Greater
    else Compare(a[1..], b[1..])
  }

  /** Swapping the arguments flips the outcome. */
  lemma {:induction false} CompareFlip(a: string, b: string)
    ensures Compare(b, a) == Compare(a, b).Flip()
  {
    if |a| > 0 && |b| > 0 && a[0] == b[0] {
      CompareFlip(a[1..], b[1..]);
    }
  }

  /** Only identical strings compare equal. */
  lemma {:induction false} CompareEqualIff(a: string, b: string)
    ensures Compare(a, b) == Equal <==> a == b
  {
    if |a| > 0 && |b| > 0 && a[0] == b[0] {
      CompareEqualIff(a[1..], b[1..]);
      if a[1..] == b[1..] {
        assert a == [a[0]] + a[1..] && b == [b[0]] + b[1..];
      }
    }
  }

  /** "Not greater" is transitive. */
  lemma {:induction false} CompareTransitive(a: string, b: string, c: string)
    requires Compare(a, b) != Greater && Compare(b, c) != Greater
    ensures Compare(a, c) != Greater
  {
    if |a| > 0 && |b| > 0 && |c| > 0 && a[0] == b[0] && b[0] == c[0] {
      CompareTransitive(a[1..], b[1..], c[1..]);
    }
  }

  predicate IsDigit(c: char) {
    '0' <= c <= '9'
  }

  predicate AllDigits(s: string) {
    forall i :: 0 <= i < |s| ==> IsDigit(s[i])
  }

  const U32Limit: int := 0x1_0000_0000

  /** Unsigned 32-bit integers. */
  type U32 = n: int | 0 <= n < U32Limit

  /** The decimal digits of `n`, without sign or leading zeros (`u32::to_string`). */
  function ShowNat(n: nat): (r: string)
    ensures |r| > 0 && AllDigits(r)
  {
    if n < 10 then [(48 + n) as char] else ShowNat(n / 10) + [(48 + n % 10) as char]
  }

  /** The number a string of decimal digits denotes. */
  function DigitsValue(s: string): nat
    requires AllDigits(s)
  {
    if |s| == 0 then 0 else 10 * DigitsValue(s[..|s| - 1]) + ((s[|s| - 1] as int) - 48)
  }

  /** Reading back the digits `ShowNat` writes gives the same number. */
  lemma {:induction false} DigitsValueShowNat(n: nat)
    ensures DigitsValue(ShowNat(n)) == n
  {
    if n >= 10 {
      DigitsValueShowNat(n / 10);
      var s := ShowNat(n);
      assert s[..|s| - 1] == ShowNat(n / 10);
    }
  }

  /** `u32::from_str`: an optional `+`, then at least one decimal digit, with a value below 2^32. */
  function ParseU32(s: string): (r: Option<U32>)
    ensures r.Some? ==> |s| > 0
  {
    var ds := if |s| > 0 && s[0] == '+' then s[1..] else s;
    if |ds| == 0 || !AllDigits(ds) then None
    else
      var v := DigitsValue(ds);
      if v < U32Limit then Some(v) else None
  }

  /** Printing a `u32` and parsing it back is the identity. */
  lemma ParseU32ShowNat(n: U32)
    ensures ParseU32(ShowNat(n)) == Some(n)
  {
    DigitsValueShowNat(n);
    var s := ShowNat(n);
    assert IsDigit(s[0]);
  }

  /** ASCII case-insensitive equality, as used when matching form values against variant names. */
  predicate EqIgnoreAsciiCase(a: string, b: string) {
    |a| == |b| && forall i :: 0 <= i < |a| ==> AsciiLower(a[i]) == AsciiLower(b[i])
  }

  function AsciiLower(c: char): char {
    if 'A' <= c <= 'Z' then (c as int + 32) as char else c
  }
}

=== FILE: sync.dfy ===
/** The incremental rebuild of the post store (`update_posts`): scan the content tree,
    convert the markdown files that changed since they were stored, write the results,
    and remove the stored posts whose files are gone. The concurrent tasks of one pass are
    modelled as a fold over the rebuild jobs followed by the deletes. */
module Sync {
  import opened Wrappers
  import opened Strs
  import opened Tree
  import opened Meta
  import opened Paths
  import opened Links
  import opened Dynamic

  /** One entry of the directory walk: its path, whether it is a directory, and its
      modification time in nanoseconds, if it could be read. */
  datatype FsEntry = FsEntry(path: string, isDir: bool, modified: Option<int>)

  /** One second, in nanoseconds: stored timestamps are the modification time less this. */
  const Skew: int := 1_000_000_000

  /** A stored post: its timestamp, its converted tree and its metadata. */
  datatype Record = Record(updated: int, tree: Doc, meta: ArticleMeta)

  /** The store, by key. */
  type Store = map<string, Record>

  /** A file to consider: its path, its store key and the timestamp it would be stored with. */
  datatype Job = Job(file: string, key: string, stamp: int)

  /** The job for an entry; an unreadable modification time counts as `now`. */
  function JobOf(root: string, now: int, e: FsEntry): (j: Job)
    ensures j.file == e.path && IsKey(j.key)
    ensures e.modified.Some? ==> j.stamp == e.modified.value - Skew
  {
    Job(e.path, LogicalPath(root, e.path), e.modified.GetOr(now) - Skew)
  }

  // ---------------------------------------------------------------------------
  // Deciding what to do.
  // ---------------------------------------------------------------------------

  /** The jobs of the walk, in walk order: one per file (not directory) whose extension is
      exactly `md`. */
  function Candidates(root: string, now: int, entries: seq<FsEntry>): seq<Job> {
    if |entries| == 0 then []
    else
      var e := entries[|entries| - 1];
      Candidates(root, now, entries[..|entries| - 1]) +
      (if IsMarkdownFile(e.path, e.isDir) then [JobOf(root, now, e)] else [])
  }

  /** The jobs are exactly those of the markdown entries. */
  lemma {:induction false} CandidatesMembers(root: string, now: int, entries: seq<FsEntry>)
    ensures forall j :: j in Candidates(root, now, entries) <==>
      exists e :: e in entries && IsMarkdownFile(e.path, e.isDir) && j == JobOf(root, now, e)
  {
    if |entries| > 0 {
      var init := entries[..|entries| - 1];
      var e := entries[|entries| - 1];
      assert entries == init + [e];
      CandidatesMembers(root, now, init);
      forall j | j in Candidates(root, now, entries)
        ensures exists e' :: e' in entries && IsMarkdownFile(e'.path, e'.isDir) && j == JobOf(root, now, e')
      {
        if j !in Candidates(root, now, init) {
          assert j == JobOf(root, now, e) && IsMarkdownFile(e.path, e.isDir);
        } else {
          var e' :| e' in init && IsMarkdownFile(e'.path, e'.isDir) && j == JobOf(root, now, e');
          assert e' in entries;
        }
      }
      forall e' | e' in entries && IsMarkdownFile(e'.path, e'.isDir)
        ensures JobOf(root, now, e') in Candidates(root, now, entries)
      {
        if e' != e {
          assert e' in init;
        }
      }
    }
  }

  /** The keys of every markdown file of the walk, changed or not. */
  function AllKeys(root: string, entries: seq<FsEntry>): set<string> {
    set e | e in entries && IsMarkdownFile(e.path, e.isDir) :: LogicalPath(root, e.path)
  }

  /** A job is stale when its key is not stored, or its timestamp is strictly newer than the
      stored one. */
  predicate Stale(store: Store, j: Job) {
    j.key !in store || j.stamp > store[j.key].updated
  }

  function FilterStale(store: Store, js: seq<Job>): (r: seq<Job>)
    ensures forall j :: j in r <==> j in js && Stale(store, j)
  {
    if |js| == 0 then []
    else
      var init := js[..|js| - 1];
      var j := js[|js| - 1];
      assert js == init + [j];
      FilterStale(store, init) + (if Stale(store, j) then [j] else [])
  }

  /** The files to convert. */
  function ToRebuild(store: Store, root: string, now: int, entries: seq<FsEntry>): seq<Job> {
    FilterStale(store, Candidates(root, now, entries))
  }

  /** The stored keys to remove: those no markdown file of the walk maps to. */
  function ToDelete(store: Store, root: string, entries: seq<FsEntry>): set<string> {
    set k | k in store && k !in AllKeys(root, entries)
  }

  /** Which files are rebuilt, and which keys are removed: a markdown file is rebuilt exactly
      when it is stale, and a key is removed exactly when it is stored and no markdown file,
      stale or not, maps to it, so nothing is both rebuilt and removed. */
  lemma Decisions(store: Store, root: string, now: int, entries: seq<FsEntry>)
    ensures forall e :: e in entries && IsMarkdownFile(e.path, e.isDir) ==>
      (JobOf(root, now, e) in ToRebuild(store, root, now, entries) <==> Stale(store, JobOf(root, now, e)))
    ensures forall j :: j in ToRebuild(store, root, now, entries) ==> (Stale(store, j) &&
      exists e :: e in entries && IsMarkdownFile(e.path, e.isDir) && j == JobOf(root, now, e))
    ensures forall k :: k in ToDelete(store, root, entries) <==>
      k in store && forall e :: e in entries && IsMarkdownFile(e.path, e.isDir) ==> LogicalPath(root, e.path) != k
    ensures forall j :: j in ToRebuild(store, root, now, entries) ==> j.key !in ToDelete(store, root, entries)
  {
    CandidatesMembers(root, now, entries);
    forall j | j in ToRebuild(store, root, now, entries) ensures j.key in AllKeys(root, entries) {
      var e :| e in entries && IsMarkdownFile(e.path, e.isDir) && j == JobOf(root, now, e);
    }
  }

  // ---------------------------------------------------------------------------
  // Rebuilding one file.
  // ---------------------------------------------------------------------------

  /** The outside world of a pass: the markdown converter, the interpreter runner and the
      nesting bound of the dynamic pass, the metadata decoder, whether the store accepts a
      write or a delete for a key, and whether the site runs in development mode. */
  datatype SyncEnv = SyncEnv(
    convert: string -> Option<Doc>,
    runner: Runner,
    fuel: nat,
    decodeMeta: map<string, Json> -> Option<ArticleMeta>,
    upsertOk: string -> bool,
    deleteOk: string -> bool,
    develop: bool)

  /** What converting one file comes to. */
  datatype Outcome = Built(tree: Doc, meta: ArticleMeta) | Failed | NotReady

  /** Convert the file, collect its links, run its dynamic blocks, and read its metadata;
      a draft (not `ready`) is skipped outside development mode. */
  function Prepare(env: SyncEnv, j: Job): (r: Outcome)
    ensures r.Built? ==> r.meta.ready || env.develop
    ensures r.Built? ==> (env.convert(j.file).Some? &&
      r.tree == RunDynamic(env.runner, env.fuel, FindLinks(env.convert(j.file).value)) &&
      env.decodeMeta(FrontMatterJson(r.tree.meta)) == Some(r.meta))
    ensures r.Built? ==> "mentions" in r.tree.meta && "post_type" in r.tree.meta && "template" in r.tree.meta
    ensures env.convert(j.file).None? ==> r == Failed
    ensures r == NotReady ==> !env.develop
    ensures r.Built? <==> (env.convert(j.file).Some? &&
      var m := env.decodeMeta(FrontMatterJson(RunDynamic(env.runner, env.fuel, FindLinks(env.convert(j.file).value)).meta));
      m.Some? && (m.value.ready || env.develop))
    ensures r == NotReady <==> (env.convert(j.file).Some? &&
      var m := env.decodeMeta(FrontMatterJson(RunDynamic(env.runner, env.fuel, FindLinks(env.convert(j.file).value)).meta));
      m.Some? && !m.value.ready && !env.develop)
  {
    match env.convert(j.file)
    case None => Failed
    case Some(doc) =>
      var tree := RunDynamic(env.runner, env.fuel, FindLinks(doc));
      match env.decodeMeta(FrontMatterJson(tree.meta))
      case None => Failed
      case Some(m) => if !m.ready && !env.develop then NotReady else Built(tree, m)
  }

  /** The record a job writes, if its conversion succeeds and the store accepts it. */
  function Write(env: SyncEnv, j: Job): (r: Option<Record>)
    ensures r.Some? <==> Prepare(env, j).Built? && env.upsertOk(j.key)
    ensures r.Some? ==> r.value.updated == j.stamp && r.value.tree == Prepare(env, j).tree &&
                        r.value.meta == Prepare(env, j).meta
  {
    match Prepare(env, j)
    case Built(tree, m) => if env.upsertOk(j.key) then Some(Record(j.stamp, tree, m)) else None
    case _ => None
  }

  /** One rebuild task: an upsert of the job's key, or nothing. */
  function ApplyJob(env: SyncEnv, store: Store, j: Job): (r: Store)
    ensures r.Keys == if Write(env, j).Some? then store.Keys + {j.key} else store.Keys
    ensures forall k :: k in store && k != j.key ==> r[k] == store[k]
    ensures Write(env, j).Some? ==> r[j.key] == Write(env, j).value
    ensures Write(env, j).None? && j.key in store ==> r[j.key] == store[j.key]
  {
    Put(store, j.key, Write(env, j))
  }

  /** The store with `k` set to the written record, if there is one. */
  function Put(store: Store, k: string, w: Option<Record>): Store {
    match w
    case Some(rec) => store[k := rec]
    case None => store
  }

  lemma PutCommute(store: Store, ka: string, wa: Option<Record>, kb: string, wb: Option<Record>)
    requires ka != kb
    ensures Put(Put(store, ka, wa), kb, wb) == Put(Put(store, kb, wb), ka, wa)
  {
    if wa.Some? && wb.Some? {
      assert store[ka := wa.value][kb := wb.value] == store[kb := wb.value][ka := wa.value];
    }
  }

  /** The rebuild tasks of a pass, one after another. */
  function ApplyJobs(env: SyncEnv, store: Store, js: seq<Job>): Store {
    if |js| == 0 then store
    else ApplyJob(env, ApplyJobs(env, store, js[..|js| - 1]), js[|js| - 1])
  }

  /** The record of the last job for `k` that writes one. */
  function LastWrite(env: SyncEnv, js: seq<Job>, k: string): (r: Option<Record>)
    ensures r.None? <==> forall i :: 0 <= i < |js| && js[i].key == k ==> Write(env, js[i]).None?
    ensures r.Some? ==> exists i :: 0 <= i < |js| && js[i].key == k && Write(env, js[i]) == r &&
                                    NoLaterWrite(env, js, k, i)
  {
    if |js| == 0 then None
    else
      var j := js[|js| - 1];
      var init := js[..|js| - 1];
      var rest := LastWrite(env, init, k);
      assert forall i :: 0 <= i < |init| ==> init[i] == js[i];
      if j.key == k && Write(env, j).Some? then
        assert NoLaterWrite(env, js, k, |js| - 1);
        Write(env, j)
      else
        assert js == init + [j];
        LastWriteStep(env, init, j, k, rest);
        rest
  }

  /** No job after the `i`-th writes a record for `k`. */
  predicate NoLaterWrite(env: SyncEnv, js: seq<Job>, k: string, i: nat) {
    forall m :: i < m < |js| && js[m].key == k ==> Write(env, js[m]).None?
  }

  /** A job that writes nothing for `k` keeps the last write of `init` the last one. */
  lemma LastWriteStep(env: SyncEnv, init: seq<Job>, j: Job, k: string, rest: Option<Record>)
    requires rest.Some? ==> exists i :: 0 <= i < |init| && init[i].key == k && Write(env, init[i]) == rest &&
                                        NoLaterWrite(env, init, k, i)
    requires !(j.key == k && Write(env, j).Some?)
    ensures rest.Some? ==> exists i :: 0 <= i < |init + [j]| && (init + [j])[i].key == k &&
                                       Write(env, (init + [j])[i]) == rest && NoLaterWrite(env, init + [j], k, i)
  {
    if rest.Some? {
      var i :| 0 <= i < |init| && init[i].key == k && Write(env, init[i]) == rest && NoLaterWrite(env, init, k, i);
      NoLaterWriteExtend(env, init, j, k, i);
      assert (init + [j])[i] == init[i];
    }
  }

  lemma NoLaterWriteExtend(env: SyncEnv, init: seq<Job>, j: Job, k: string, i: nat)
    requires NoLaterWrite(env, init, k, i) && !(j.key == k && Write(env, j).Some?)
    ensures NoLaterWrite(env, init + [j], k, i)
  {
    var js := init + [j];
    forall m | i < m < |js| && js[m].key == k ensures Write(env, js[m]).None? {
      if m < |init| {
        assert js[m] == init[m];
      }
    }
  }

  /** After the rebuild tasks, a key holds the last record written for it, or else what it
      held before. */
  lemma {:induction false} ApplyJobsAt(env: SyncEnv, store: Store, js: seq<Job>, k: string)
    ensures var r := ApplyJobs(env, store, js);
      match LastWrite(env, js, k)
      case Some(rec) => k in r && r[k] == rec
      case None => (k in r <==> k in store) && (k in store ==> r[k] == store[k])
  {
    if |js| > 0 {
      var init := js[..|js| - 1];
      var j := js[|js| - 1];
      ApplyJobsAt(env, store, init, k);
      var before := ApplyJobs(env, store, init);
      assert ApplyJobs(env, store, js) == ApplyJob(env, before, j);
      if j.key == k && Write(env, j).Some? {
        assert LastWrite(env, js, k) == Write(env, j);
      } else {
        assert LastWrite(env, js, k) == LastWrite(env, init, k);
      }
    }
  }

  /** Tasks for different keys commute, so the order the concurrent tasks finish in does not
      matter when no two files share a key. */
  lemma ApplyJobCommute(env: SyncEnv, store: Store, a: Job, b: Job)
    requires a.key != b.key
    ensures ApplyJob(env, ApplyJob(env, store, a), b) == ApplyJob(env, ApplyJob(env, store, b), a)
  {
    PutCommute(store, a.key, Write(env, a), b.key, Write(env, b));
  }

  /** Two files with the same key (`a.md` and `a.md.md`) race: when both write different
      records, whichever finishes last wins. */
  lemma CollisionOrderMatters(env: SyncEnv, store: Store, a: Job, b: Job)
    requires a.key == b.key && Write(env, a).Some? && Write(env, b).Some? && Write(env, a) != Write(env, b)
    ensures ApplyJob(env, ApplyJob(env, store, a), b) != ApplyJob(env, ApplyJob(env, store, b), a)
  {
    assert ApplyJob(env, ApplyJob(env, store, a), b)[a.key] == Write(env, b).value;
    assert ApplyJob(env, ApplyJob(env, store, b), a)[a.key] == Write(env, a).value;
  }

  // ---------------------------------------------------------------------------
  // A whole pass.
  // ---------------------------------------------------------------------------

  /** One pass: the rebuild tasks, then the deletes the store accepts. */
  function Pass(env: SyncEnv, store: Store, root: string, now: int, entries: seq<FsEntry>): (r: Store)
    ensures r.Keys <= ApplyJobs(env, store, ToRebuild(store, root, now, entries)).Keys
  {
    var written := ApplyJobs(env, store, ToRebuild(store, root, now, entries));
    var dels := ToDelete(store, root, entries);
    map k | k in written && !(k in dels && env.deleteOk(k)) :: written[k]
  }

  /** What a pass does to each key: a removed key is gone; a rebuilt key holds its new record
      (the logical path's timestamp, tree and metadata); every other key, including those whose
      conversion failed, whose metadata did not read or that are drafts, is untouched. */
  lemma PassEffect(env: SyncEnv, store: Store, root: string, now: int, entries: seq<FsEntry>, k: string)
    ensures var r := Pass(env, store, root, now, entries);
      var js := ToRebuild(store, root, now, entries);
      var removed := k in ToDelete(store, root, entries) && env.deleteOk(k);
      (removed ==> k !in r && LastWrite(env, js, k).None?) &&
      (LastWrite(env, js, k).Some? ==> k in r && r[k] == LastWrite(env, js, k).value) &&
      (LastWrite(env, js, k).None? && !removed ==> (k in r <==> k in store) && (k in r ==> r[k] == store[k]))
  {
    var js := ToRebuild(store, root, now, entries);
    ApplyJobsAt(env, store, js, k);
    Decisions(store, root, now, entries);
  }

  /** The job of a markdown entry, when its key is no other markdown entry's key. */
  predicate DistinctKeys(js: seq<Job>) {
    forall a, b :: 0 <= a < b < |js| ==> js[a].key != js[b].key
  }

  /** When every job for `k` is `j`, the last record written for `k` is `j`'s. */
  lemma {:induction false} LastWriteOnly(env: SyncEnv, js: seq<Job>, j: Job)
    requires j in js && Write(env, j).Some?
    requires forall i :: 0 <= i < |js| && js[i].key == j.key ==> js[i] == j
    ensures LastWrite(env, js, j.key) == Write(env, j)
  {
    var init := js[..|js| - 1];
    if js[|js| - 1] != j {
      assert j in init by {
        var i :| 0 <= i < |js| && js[i] == j;
        assert i < |js| - 1 && init[i] == j;
      }
      LastWriteOnly(env, init, j);
    }
  }

  /** With known modification times the clock does not affect the jobs. */
  lemma {:induction false} CandidatesIgnoreClock(root: string, now: int, now': int, entries: seq<FsEntry>)
    requires forall e :: e in entries ==> e.modified.Some?
    ensures Candidates(root, now, entries) == Candidates(root, now', entries)
  {
    if |entries| > 0 {
      var init, e := entries[..|entries| - 1], entries[|entries| - 1];
      assert forall e :: e in init ==> e in entries;
      CandidatesIgnoreClock(root, now, now', init);
      assert e in entries;
      assert JobOf(root, now, e) == JobOf(root, now', e);
    }
  }

  /** Idempotence: when no two files share a key, every modification time is known, every
      rebuild and delete of a pass is accepted, and the files do not change, the next pass
      (at any time) has nothing to rebuild and nothing to remove, because each rebuilt key
      now holds its file's timestamp. */
  lemma PassIdempotent(env: SyncEnv, store: Store, root: string, now: int, now': int, entries: seq<FsEntry>)
    requires forall e :: e in entries ==> e.modified.Some?
    requires DistinctKeys(Candidates(root, now, entries))
    requires forall j :: j in ToRebuild(store, root, now, entries) ==> Write(env, j).Some?
    requires forall k :: k in ToDelete(store, root, entries) ==> env.deleteOk(k)
    ensures var next := Pass(env, store, root, now, entries);
      ToRebuild(next, root, now', entries) == [] && ToDelete(next, root, entries) == {}
  {
    var next := Pass(env, store, root, now, entries);
    var cs := Candidates(root, now, entries);
    CandidatesIgnoreClock(root, now, now', entries);
    forall c | c in cs ensures !Stale(next, c) {
      CandidateFresh(env, store, root, now, entries, c);
    }
    NothingStale(next, cs);
    forall k | k in next ensures k in AllKeys(root, entries) {
      KeptKeyIsFile(env, store, root, now, entries, k);
    }
    assert ToDelete(next, root, entries) == {};
  }

  /** A file whose modification time cannot be read is stamped with the clock, so once a pass
      has rebuilt it, every later pass finds it stale and rebuilds it again, even though the
      file has not changed. */
  lemma UnreadableRebuiltAgain(env: SyncEnv, store: Store, root: string, now: int, now': int,
                               entries: seq<FsEntry>, e: FsEntry)
    requires e in entries && IsMarkdownFile(e.path, e.isDir) && e.modified.None?
    requires now < now'
    requires DistinctKeys(Candidates(root, now, entries))
    requires JobOf(root, now, e) in ToRebuild(store, root, now, entries) && Write(env, JobOf(root, now, e)).Some?
    ensures var next := Pass(env, store, root, now, entries);
      JobOf(root, now, e).key in next && next[JobOf(root, now, e).key].updated == now - Skew &&
      JobOf(root, now', e) in ToRebuild(next, root, now', entries)
  {
    var c := JobOf(root, now, e);
    var cs := Candidates(root, now, entries);
    var js := ToRebuild(store, root, now, entries);
    var next := Pass(env, store, root, now, entries);
    CandidatesMembers(root, now, entries);
    forall i | 0 <= i < |js| && js[i].key == c.key ensures js[i] == c {
      assert js[i] in js;
      SameKeySameJob(cs, js[i], c);
    }
    LastWriteOnly(env, js, c);
    PassEffect(env, store, root, now, entries, c.key);
    assert Stale(next, JobOf(root, now', e));
    Decisions(next, root, now', entries);
  }

  /** After such a pass no markdown file is stale. */
  lemma CandidateFresh(env: SyncEnv, store: Store, root: string, now: int, entries: seq<FsEntry>, c: Job)
    requires DistinctKeys(Candidates(root, now, entries))
    requires forall j :: j in ToRebuild(store, root, now, entries) ==> Write(env, j).Some?
    requires c in Candidates(root, now, entries)
    ensures !Stale(Pass(env, store, root, now, entries), c)
  {
    var cs := Candidates(root, now, entries);
    var js := ToRebuild(store, root, now, entries);
    PassEffect(env, store, root, now, entries, c.key);
    forall i | 0 <= i < |js| && js[i].key == c.key ensures js[i] == c {
      assert js[i] in js;
      SameKeySameJob(cs, js[i], c);
    }
    if c in js {
      LastWriteOnly(env, js, c);
    } else {
      assert LastWrite(env, js, c.key).None?;
      Decisions(store, root, now, entries);
      CandidatesMembers(root, now, entries);
    }
  }

  /** After such a pass every stored key belongs to a markdown file. */
  lemma KeptKeyIsFile(env: SyncEnv, store: Store, root: string, now: int, entries: seq<FsEntry>, k: string)
    requires forall k :: k in ToDelete(store, root, entries) ==> env.deleteOk(k)
    requires k in Pass(env, store, root, now, entries)
    ensures k in AllKeys(root, entries)
  {
    var js := ToRebuild(store, root, now, entries);
    PassEffect(env, store, root, now, entries, k);
    if LastWrite(env, js, k).Some? {
      var i :| 0 <= i < |js| && js[i].key == k && Write(env, js[i]) == LastWrite(env, js, k);
      Decisions(store, root, now, entries);
      assert js[i] in js;
    }
  }

  lemma SameKeySameJob(cs: seq<Job>, a: Job, b: Job)
    requires DistinctKeys(cs) && a in cs && b in cs && a.key == b.key
    ensures a == b
  {
    var i :| 0 <= i < |cs| && cs[i] == a;
    var j :| 0 <= j < |cs| && cs[j] == b;
    if i < j {
    } else if j < i {
    }
  }

  lemma {:induction false} NothingStale(store: Store, js: seq<Job>)
    requires forall j :: j in js ==> !Stale(store, j)
    ensures FilterStale(store, js) == []
  {
    if |js| > 0 {
      var init := js[..|js| - 1];
      assert forall j :: j in init ==> j in js;
      NothingStale(store, init);
      assert js[|js| - 1] in js;
    }
  }

  // ---------------------------------------------------------------------------
  // Outgoing webmentions.
  // ---------------------------------------------------------------------------

  /** The notifications a written job sends, as (file, target) pairs: every mention of its new
      metadata, then every mention of the metadata stored before the pass. */
  function JobNotifications(env: SyncEnv, store: Store, j: Job): seq<(string, string)> {
    match Write(env, j)
    case None => []
    case Some(rec) =>
      var before := if j.key in store then store[j.key].meta.mentions else [];
      WithKey(j.file, rec.meta.mentions + before)
  }

  function Notifications(env: SyncEnv, store: Store, js: seq<Job>): seq<(string, string)> {
    if |js| == 0 then []
    else Notifications(env, store, js[..|js| - 1]) + JobNotifications(env, store, js[|js| - 1])
  }

  /** A notification goes out exactly for a rebuilt file whose record was written, to a target
      its new metadata mentions or its previously stored metadata mentioned. */
  lemma {:induction false} NotificationsExact(env: SyncEnv, store: Store, js: seq<Job>, file: string, target: string)
    ensures (file, target) in Notifications(env, store, js) <==>
      exists j :: j in js && j.file == file && Write(env, j).Some? &&
        (target in Write(env, j).value.meta.mentions ||
         (j.key in store && target in store[j.key].meta.mentions))
  {
    if |js| > 0 {
      var init := js[..|js| - 1];
      var j := js[|js| - 1];
      assert js == init + [j];
      NotificationsExact(env, store, init, file, target);
      JobNotificationsExact(env, store, j, file, target);
    }
  }

  lemma JobNotificationsExact(env: SyncEnv, store: Store, j: Job, file: string, target: string)
    ensures (file, target) in JobNotifications(env, store, j) <==>
      j.file == file && Write(env, j).Some? &&
        (target in Write(env, j).value.meta.mentions ||
         (j.key in store && target in store[j.key].meta.mentions))
  {
    if Write(env, j).Some? {
      var before := if j.key in store then store[j.key].meta.mentions else [];
      var ts := Write(env, j).value.meta.mentions + before;
      var ps := WithKey(j.file, ts);
      if (file, target) in ps {
        var i :| 0 <= i < |ps| && ps[i] == (file, target);
        assert ts[i] == target;
      }
      if j.file == file && target in ts {
        var i :| 0 <= i < |ts| && ts[i] == target;
        assert ps[i] == (file, target);
      }
    }
  }
}

=== FILE: tags.dfy ===
/** The tag directory: every tag used by a visible post, and how many times each is used. */
module Tags {
  import opened Wrappers

  /** All tags of the rows, in row order; a row without a tag list contributes nothing. */
  function AllTags(rows: seq<Option<seq<string>>>): seq<string> {
    if |rows| == 0 then [] else AllTags(rows[..|rows| - 1]) + rows[|rows| - 1].GetOr([])
  }

  /** How often `t` occurs in `ts`. */
  function Occurrences(ts: seq<string>, t: string): nat {
    if |ts| == 0 then 0 else Occurrences(ts[..|ts| - 1], t) + (if ts[|ts| - 1] == t then 1 else 0)
  }

  /** One step of the count: the tag's entry goes up by one, starting from zero. */
  function Bump(acc: map<string, nat>, t: string): (r: map<string, nat>)
    ensures r.Keys == acc.Keys + {t}
  {
    acc[t := (if t in acc then acc[t] else 0) + 1]
  }

  /** The fold over the tags in order (`tag_counts`). */
  function CountFrom(acc: map<string, nat>, ts: seq<string>): map<string, nat> {
    if |ts| == 0 then acc else Bump(CountFrom(acc, ts[..|ts| - 1]), ts[|ts| - 1])
  }

  function TagCounts(rows: seq<Option<seq<string>>>): map<string, nat> {
    CountFrom(map[], AllTags(rows))
  }

  /** The set of tags (`tags`): those carried by some row. */
  function TagSet(rows: seq<Option<seq<string>>>): (r: set<string>)
    ensures forall t :: t in r <==> t in AllTags(rows)
    ensures forall t :: t in r <==> exists i :: 0 <= i < |rows| && rows[i].Some? && t in rows[i].value
  {
    AllTagsMembers(rows);
    set t | t in AllTags(rows)
  }

  /** A tag is in the flattened list exactly when some row carries it. */
  lemma {:induction false} AllTagsMembers(rows: seq<Option<seq<string>>>)
    ensures forall t :: t in AllTags(rows) <==> exists i :: 0 <= i < |rows| && rows[i].Some? && t in rows[i].value
  {
    if |rows| > 0 {
      var init, last := rows[..|rows| - 1], rows[|rows| - 1];
      AllTagsMembers(init);
      assert AllTags(rows) == AllTags(init) + last.GetOr([]);
      forall t ensures t in AllTags(rows) <==> exists i :: 0 <= i < |rows| && rows[i].Some? && t in rows[i].value {
        if t in AllTags(init) {
          var i :| 0 <= i < |init| && init[i].Some? && t in init[i].value;
          assert rows[i] == init[i];
        } else if t in last.GetOr([]) {
          assert rows[|rows| - 1] == last;
        }
      }
    }
  }

  lemma {:induction false} CountFromCounts(ts: seq<string>)
    ensures forall t :: t in CountFrom(map[], ts) <==> t in ts
    ensures forall t :: t in CountFrom(map[], ts) ==> CountFrom(map[], ts)[t] == Occurrences(ts, t)
  {
    if |ts| > 0 {
      var init := ts[..|ts| - 1];
      CountFromCounts(init);
      assert ts == init + [ts[|ts| - 1]];
      forall t ensures t in init || t == ts[|ts| - 1] <==> t in ts {
      }
      forall t | t !in CountFrom(map[], init) ensures Occurrences(init, t) == 0 {
        NotInNoOccurrences(init, t);
      }
    }
  }

  lemma {:induction false} NotInNoOccurrences(ts: seq<string>, t: string)
    requires t !in ts
    ensures Occurrences(ts, t) == 0
  {
    if |ts| > 0 {
      assert forall u :: u in ts[..|ts| - 1] ==> u in ts;
      NotInNoOccurrences(ts[..|ts| - 1], t);
    }
  }

  /** Each used tag is counted exactly as often as it is used, and the counted tags are
      exactly the tags of the directory. */
  lemma TagCountsExact(rows: seq<Option<seq<string>>>)
    ensures TagCounts(rows).Keys == TagSet(rows)
    ensures forall t :: t in TagCounts(rows) ==> TagCounts(rows)[t] == Occurrences(AllTags(rows), t) > 0
  {
    CountFromCounts(AllTags(rows));
    forall t | t in AllTags(rows) ensures Occurrences(AllTags(rows), t) > 0 {
      OccursPositive(AllTags(rows), t);
    }
  }

  lemma {:induction false} OccursPositive(ts: seq<string>, t: string)
    requires t in ts
    ensures Occurrences(ts, t) > 0
  {
    if ts[|ts| - 1] != t {
      var init := ts[..|ts| - 1];
      assert ts == init + [ts[|ts| - 1]];
      assert t in init;
      OccursPositive(init, t);
    }
  }
}

=== FILE: tree.dfy ===
/** The document tree produced by the converter: blocks, inlines, front-matter
    values, and the one traversal shape shared by the read-time passes. */
module Tree {
  import opened Wrappers

  /** Identifier, class list and key/value attributes of a node. */
  datatype Attr = Attr(id: string, classes: seq<string>, kvs: seq<(string, string)>)

  /** `Attr::default()`: no identifier, no classes, no attributes. */
  const NoAttr: Attr := Attr("", [], [])

  predicate HasClass(a: Attr, c: string) {
    c in a.classes
  }

  datatype Inline =
    | Str(text: string)
    | Space
    | SoftBreak
    | LineBreak
      /** Every inline container without attributes (emphasis, strong, quoted, ...). */
    | Emph(content: seq<Inline>)
    | Link(attr: Attr, content: seq<Inline>, url: string, title: string)
      /** A footnote: inlines that hold whole blocks. */
    | Footnote(blocks: seq<Block>)
      /** Inline code, math and raw inlines: leaves the passes never look into. */
    | OtherInline(text: string)

  /** One line of a line block. */
  datatype Line = Line(inlines: seq<Inline>)

  datatype Block =
    | Plain(inlines: seq<Inline>)
    | Para(inlines: seq<Inline>)
    | LineBlock(lines: seq<Line>)
    | CodeBlock(attr: Attr, text: string)
    | RawBlock(format: string, text: string)
    | BlockQuote(blocks: seq<Block>)
    | Header(level: int, attr: Attr, inlines: seq<Inline>)
    | Div(attr: Attr, blocks: seq<Block>)
    | HorizontalRule

  /** A front-matter value; a map is kept as its ordered list of entries. */
  datatype MetaValue =
    | MetaMap(entries: seq<MetaEntry>)
    | MetaList(items: seq<MetaValue>)
    | MetaBool(b: bool)
    | MetaString(s: string)
    | MetaInlines(inlines: seq<Inline>)
    | MetaBlocks(blocks: seq<Block>)

  datatype MetaEntry = MetaEntry(key: string, value: MetaValue)

  /** A converted document: its front matter and its top-level blocks. */
  datatype Doc = Doc(meta: map<string, MetaValue>, blocks: seq<Block>)

  // ---------------------------------------------------------------------------
  // Rewriting every code block.
  //
  // The include and search-fragment passes visit every block of the tree,
  // descending through containers and through footnotes inside inlines, and
  // replace each code block by whatever their per-block rule returns, without
  // visiting the replacement. `MapCode*` is that traversal for a rule `f`.
  // ---------------------------------------------------------------------------

  function MapCodeBlock(f: (Attr, string) -> Block, b: Block): Block
  {
    match b
    case Plain(ins) => Plain(MapCodeInlines(f, ins))
    case Para(ins) => Para(MapCodeInlines(f, ins))
    case LineBlock(lines) => LineBlock(MapCodeLines(f, lines))
    case CodeBlock(a, t) => f(a, t)
    case RawBlock(_, _) => b
    case BlockQuote(bs) => BlockQuote(MapCodeBlocks(f, bs))
    case Header(l, a, ins) => Header(l, a, MapCodeInlines(f, ins))
    case Div(a, bs) => Div(a, MapCodeBlocks(f, bs))
    case HorizontalRule => b
  }

  /** The rule applies to each block on its own: the sequence keeps its length and
      every block is rewritten independently of its neighbours. */
  function MapCodeBlocks(f: (Attr, string) -> Block, bs: seq<Block>): (r: seq<Block>)
    ensures |r| == |bs|
    ensures forall i :: 0 <= i < |bs| ==> r[i] == MapCodeBlock(f, bs[i])
  {
    if |bs| == 0 then [] else [MapCodeBlock(f, bs[0])] + MapCodeBlocks(f, bs[1..])
  }

  function MapCodeLines(f: (Attr, string) -> Block, lines: seq<Line>): (r: seq<Line>)
    ensures |r| == |lines|
  {
    if |lines| == 0 then []
    else [Line(MapCodeInlines(f, lines[0].inlines))] + MapCodeLines(f, lines[1..])
  }

  function MapCodeInline(f: (Attr, string) -> Block, i: Inline): Inline
  {
    match i
    case Emph(c) => Emph(MapCodeInlines(f, c))
    case Link(a, c, u, t) => Link(a, MapCodeInlines(f, c), u, t)
    case Footnote(bs) => Footnote(MapCodeBlocks(f, bs))
    case _ => i
  }

  function MapCodeInlines(f: (Attr, string) -> Block, ins: seq<Inline>): (r: seq<Inline>)
    ensures |r| == |ins|
    ensures forall k :: 0 <= k < |ins| ==> r[k] == MapCodeInline(f, ins[k])
  {
    if |ins| == 0 then [] else [MapCodeInline(f, ins[0])] + MapCodeInlines(f, ins[1..])
  }

  // Every code block anywhere in a tree satisfies `p`.

  predicate AllCodeBlock(p: (Attr, string) -> bool, b: Block)
  {
    match b
    case Plain(ins) => AllCodeInlines(p, ins)
    case Para(ins) => AllCodeInlines(p, ins)
    case LineBlock(lines) => AllCodeLines(p, lines)
    case CodeBlock(a, t) => p(a, t)
    case RawBlock(_, _) => true
    case BlockQuote(bs) => AllCodeBlocks(p, bs)
    case Header(_, _, ins) => AllCodeInlines(p, ins)
    case Div(_, bs) => AllCodeBlocks(p, bs)
    case HorizontalRule => true
  }

  predicate AllCodeBlocks(p: (Attr, string) -> bool, bs: seq<Block>)
  {
    |bs| == 0 || (AllCodeBlock(p, bs[0]) && AllCodeBlocks(p, bs[1..]))
  }

  predicate AllCodeLines(p: (Attr, string) -> bool, lines: seq<Line>)
  {
    |lines| == 0 || (AllCodeInlines(p, lines[0].inlines) && AllCodeLines(p, lines[1..]))
  }

  predicate AllCodeInline(p: (Attr, string) -> bool, i: Inline)
  {
    match i
    case Emph(c) => AllCodeInlines(p, c)
    case Link(_, c, _, _) => AllCodeInlines(p, c)
    case Footnote(bs) => AllCodeBlocks(p, bs)
    case _ => true
  }

  predicate AllCodeInlines(p: (Attr, string) -> bool, ins: seq<Inline>)
  {
    |ins| == 0 || (AllCodeInline(p, ins[0]) && AllCodeInlines(p, ins[1..]))
  }

  /** The rule `f` leaves the code block (`a`, `t`) as it is. */
  predicate Keeps(f: (Attr, string) -> Block, a: Attr, t: string) {
    f(a, t) == CodeBlock(a, t)
  }

  /** A pass leaves a tree untouched when its rule keeps every code block the tree holds. */
  lemma {:induction false} MapCodeBlocksIdentity(f: (Attr, string) -> Block, bs: seq<Block>)
    requires AllCodeBlocks((a, t) => Keeps(f, a, t), bs)
    ensures MapCodeBlocks(f, bs) == bs
    decreases bs
  {
    if |bs| > 0 {
      MapCodeBlockIdentity(f, bs[0]);
      MapCodeBlocksIdentity(f, bs[1..]);
      assert bs == [bs[0]] + bs[1..];
    }
  }

  lemma {:induction false} MapCodeBlockIdentity(f: (Attr, string) -> Block, b: Block)
    requires AllCodeBlock((a, t) => Keeps(f, a, t), b)
    ensures MapCodeBlock(f, b) == b
    decreases b
  {
    match b
    case Plain(ins) => MapCodeInlinesIdentity(f, ins);
    case Para(ins) => MapCodeInlinesIdentity(f, ins);
    case LineBlock(lines) => MapCodeLinesIdentity(f, lines);
    case CodeBlock(a, t) =>
    case RawBlock(_, _) =>
    case BlockQuote(bs) => MapCodeBlocksIdentity(f, bs);
    case Header(_, _, ins) => MapCodeInlinesIdentity(f, ins);
    case Div(_, bs) => MapCodeBlocksIdentity(f, bs);
    case HorizontalRule =>
  }

  lemma {:induction false} MapCodeLinesIdentity(f: (Attr, string) -> Block, lines: seq<Line>)
    requires AllCodeLines((a, t) => Keeps(f, a, t), lines)
    ensures MapCodeLines(f, lines) == lines
    decreases lines
  {
    if |lines| > 0 {
      MapCodeInlinesIdentity(f, lines[0].inlines);
      MapCodeLinesIdentity(f, lines[1..]);
      assert lines == [lines[0]] + lines[1..];
    }
  }

  lemma {:induction false} MapCodeInlineIdentity(f: (Attr, string) -> Block, i: Inline)
    requires AllCodeInline((a, t) => Keeps(f, a, t), i)
    ensures MapCodeInline(f, i) == i
    decreases i
  {
    match i
    case Emph(c) => MapCodeInlinesIdentity(f, c);
    case Link(_, c, _, _) => MapCodeInlinesIdentity(f, c);
    case Footnote(bs) => MapCodeBlocksIdentity(f, bs);
    case _ =>
  }

  lemma {:induction false} MapCodeInlinesIdentity(f: (Attr, string) -> Block, ins: seq<Inline>)
    requires AllCodeInlines((a, t) => Keeps(f, a, t), ins)
    ensures MapCodeInlines(f, ins) == ins
    decreases ins
  {
    if |ins| > 0 {
      MapCodeInlineIdentity(f, ins[0]);
      MapCodeInlinesIdentity(f, ins[1..]);
      assert ins == [ins[0]] + ins[1..];
    }
  }

  /** A weaker rule still holds of every code block: `AllCode*` is monotone in its rule. */
  lemma {:induction false} AllCodeBlocksMono(p: (Attr, string) -> bool, q: (Attr, string) -> bool, bs: seq<Block>)
    requires forall a, t :: p(a, t) ==> q(a, t)
    requires AllCodeBlocks(p, bs)
    ensures AllCodeBlocks(q, bs)
    decreases bs
  {
    if |bs| > 0 {
      AllCodeBlockMono(p, q, bs[0]);
      AllCodeBlocksMono(p, q, bs[1..]);
    }
  }

  lemma {:induction false} AllCodeBlockMono(p: (Attr, string) -> bool, q: (Attr, string) -> bool, b: Block)
    requires forall a, t :: p(a, t) ==> q(a, t)
    requires AllCodeBlock(p, b)
    ensures AllCodeBlock(q, b)
    decreases b
  {
    match b
    case Plain(ins) => AllCodeInlinesMono(p, q, ins);
    case Para(ins) => AllCodeInlinesMono(p, q, ins);
    case LineBlock(lines) => AllCodeLinesMono(p, q, lines);
    case BlockQuote(bs) => AllCodeBlocksMono(p, q, bs);
    case Header(_, _, ins) => AllCodeInlinesMono(p, q, ins);
    case Div(_, bs) => AllCodeBlocksMono(p, q, bs);
    case _ =>
  }

  lemma {:induction false} AllCodeLinesMono(p: (Attr, string) -> bool, q: (Attr, string) -> bool, lines: seq<Line>)
    requires forall a, t :: p(a, t) ==> q(a, t)
    requires AllCodeLines(p, lines)
    ensures AllCodeLines(q, lines)
    decreases lines
  {
    if |lines| > 0 {
      AllCodeInlinesMono(p, q, lines[0].inlines);
      AllCodeLinesMono(p, q, lines[1..]);
    }
  }

  lemma {:induction false} AllCodeInlineMono(p: (Attr, string) -> bool, q: (Attr, string) -> bool, i: Inline)
    requires forall a, t :: p(a, t) ==> q(a, t)
    requires AllCodeInline(p, i)
    ensures AllCodeInline(q, i)
    decreases i
  {
    match i
    case Emph(c) => AllCodeInlinesMono(p, q, c);
    case Link(_, c, _, _) => AllCodeInlinesMono(p, q, c);
    case Footnote(bs) => AllCodeBlocksMono(p, q, bs);
    case _ =>
  }

  lemma {:induction false} AllCodeInlinesMono(p: (Attr, string) -> bool, q: (Attr, string) -> bool, ins: seq<Inline>)
    requires forall a, t :: p(a, t) ==> q(a, t)
    requires AllCodeInlines(p, ins)
    ensures AllCodeInlines(q, ins)
    decreases ins
  {
    if |ins| > 0 {
      AllCodeInlineMono(p, q, ins[0]);
      AllCodeInlinesMono(p, q, ins[1..]);
    }
  }

  // ---------------------------------------------------------------------------
  // Flattening front matter to JSON (the conversion `ArticleMeta::try_from`
  // performs before handing the values to the deserializer).
  // ---------------------------------------------------------------------------

  /** A JSON value; an object is kept as its ordered list of fields. */
  datatype Json =
    | JNull
    | JBool(b: bool)
    | JNumber(n: int)
    | JString(s: string)
    | JArray(items: seq<Json>)
    | JObject(fields: seq<JField>)

  datatype JField = JField(key: string, value: Json)

  /** The text an inline contributes: only words, spaces and breaks count. */
  function InlineText(i: Inline): string {
    match i
    case Str(s) => s
    case Space => " "
    case SoftBreak => "\n"
    case LineBreak => "\n"
    case _ => ""
  }

  function InlinesText(ins: seq<Inline>): string {
    if |ins| == 0 then "" else InlineText(ins[0]) + InlinesText(ins[1..])
  }

  /** Flattening distributes over concatenation, so the text of a run is the text of its parts. */
  lemma {:induction false} InlinesTextAppend(a: seq<Inline>, b: seq<Inline>)
    ensures InlinesText(a + b) == InlinesText(a) + InlinesText(b)
  {
    if |a| > 0 {
      assert (a + b)[1..] == a[1..] + b;
      InlinesTextAppend(a[1..], b);
    } else {
      assert a + b == b;
    }
  }

  /** Each line of a line block, followed by a newline. */
  function LinesText(lines: seq<Line>): string {
    if |lines| == 0 then "" else InlinesText(lines[0].inlines) + "\n" + LinesText(lines[1..])
  }

  /** The text of a block: paragraphs, line blocks, raw blocks and quotations; all else is empty. */
  function BlockText(b: Block): string
    decreases b
  {
    match b
    case Plain(ins) => InlinesText(ins)
    case Para(ins) => InlinesText(ins)
    case LineBlock(lines) => LinesText(lines)
    case RawBlock(_, s) => s
    case BlockQuote(bs) => QuotedText(bs)
    case _ => ""
  }

  /** The blocks of a quotation, each followed by a newline. */
  function QuotedText(bs: seq<Block>): string
    decreases bs
  {
    if |bs| == 0 then "" else BlockText(bs[0]) + "\n" + QuotedText(bs[1..])
  }

  /** The blocks of a block-valued front-matter entry, concatenated with no separator. */
  function BlocksText(bs: seq<Block>): string {
    if |bs| == 0 then "" else BlockText(bs[0]) + BlocksText(bs[1..])
  }

  /** A quotation of `n` blocks yields exactly `n` block separators more than its blocks' text. */
  lemma {:induction false} QuotedTextLength(bs: seq<Block>)
    ensures |QuotedText(bs)| == |BlocksText(bs)| + |bs|
  {
    if |bs| > 0 {
      QuotedTextLength(bs[1..]);
    }
  }

  /** Front matter to JSON: maps, lists and booleans keep their shape; strings, inline
      runs and block runs all become JSON strings. */
  function MetaToJson(m: MetaValue): (r: Json)
    ensures r.JObject? <==> m.MetaMap?
    ensures r.JArray? <==> m.MetaList?
    ensures r.JBool? <==> m.MetaBool?
    ensures r.JString? <==> (m.MetaString? || m.MetaInlines? || m.MetaBlocks?)
    ensures m.MetaMap? ==>
              |r.fields| == |m.entries| && forall k :: 0 <= k < |m.entries| ==> r.fields[k].key == m.entries[k].key
    ensures m.MetaList? ==> |r.items| == |m.items|
    ensures m.MetaBool? ==> r.b == m.b
    ensures m.MetaString? ==> r.s == m.s
    decreases m
  {
    match m
    case MetaMap(es) => JObject(EntriesToJson(es))
    case MetaList(xs) => JArray(ItemsToJson(xs))
    case MetaBool(b) => JBool(b)
    case MetaString(s) => JString(s)
    case MetaInlines(ins) => JString(InlinesText(ins))
    case MetaBlocks(bs) => JString(BlocksText(bs))
  }

  function EntriesToJson(es: seq<MetaEntry>): (r: seq<JField>)
    ensures |r| == |es|
    ensures forall k :: 0 <= k < |es| ==> r[k].key == es[k].key
    decreases es
  {
    if |es| == 0 then [] else [JField(es[0].key, MetaToJson(es[0].value))] + EntriesToJson(es[1..])
  }

  function ItemsToJson(xs: seq<MetaValue>): (r: seq<Json>)
    ensures |r| == |xs|
    decreases xs
  {
    if |xs| == 0 then [] else [MetaToJson(xs[0])] + ItemsToJson(xs[1..])
  }

  /** Flattening never produces `null` or a number anywhere in the value. */
  predicate NoNullOrNumber(j: Json)
    decreases j
  {
    match j
    case JNull => false
    case JNumber(_) => false
    case JArray(xs) => forall k :: 0 <= k < |xs| ==> NoNullOrNumber(xs[k])
    case JObject(fs) => forall k :: 0 <= k < |fs| ==> NoNullOrNumber(fs[k].value)
    case _ => true
  }

  lemma {:induction false} MetaToJsonNoNull(m: MetaValue)
    ensures NoNullOrNumber(MetaToJson(m))
    decreases m
  {
    match m
    case MetaMap(es) => EntriesToJsonNoNull(es);
    case MetaList(xs) => ItemsToJsonNoNull(xs);
    case _ =>
  }

  lemma {:induction false} EntriesToJsonNoNull(es: seq<MetaEntry>)
    ensures forall k :: 0 <= k < |es| ==> NoNullOrNumber(EntriesToJson(es)[k].value)
    decreases es
  {
    if |es| > 0 {
      MetaToJsonNoNull(es[0].value);
      EntriesToJsonNoNull(es[1..]);
      var r := EntriesToJson(es);
      forall k | 0 <= k < |es| ensures NoNullOrNumber(r[k].value) {
        if k > 0 {
          assert r[k] == EntriesToJson(es[1..])[k - 1];
        }
      }
    }
  }

  lemma {:induction false} ItemsToJsonNoNull(xs: seq<MetaValue>)
    ensures forall k :: 0 <= k < |xs| ==> NoNullOrNumber(ItemsToJson(xs)[k])
    decreases xs
  {
    if |xs| > 0 {
      MetaToJsonNoNull(xs[0]);
      ItemsToJsonNoNull(xs[1..]);
      var r := ItemsToJson(xs);
      forall k | 0 <= k < |xs| ensures NoNullOrNumber(r[k]) {
        if k > 0 {
          assert r[k] == ItemsToJson(xs[1..])[k - 1];
        }
      }
    }
  }

  /** The JSON object handed to the metadata deserializer: one field per front-matter key. */
  function FrontMatterJson(meta: map<string, MetaValue>): (r: map<string, Json>)
    ensures r.Keys == meta.Keys
  {
    map k | k in meta :: MetaToJson(meta[k])
  }
}

=== FILE: webmention.dfy ===
/** The checks an incoming webmention goes through before anything is fetched: both URLs
    must parse and be absolute, the target must be on this site, and the mentioned post is
    read off the target's path. */
module Webmention {
  import opened Wrappers
  import opened Strs

  /** What the checks need of a parsed URL. */
  datatype Url = Url(cannotBeABase: bool, host: Option<string>, path: string)

  /** Why a webmention is refused, in the order the checks run. */
  datatype Refusal = BadSource | SourceNotAbsolute | BadTarget | TargetNotAbsolute | NotOurPage | NotAPost

  /** The text sent back with the refusal (status 400 in every case). */
  function Message(e: Refusal): string {
    match e
    case BadSource => "Bad source URL"
    case SourceNotAbsolute => "Source URL should be absolute"
    case BadTarget => "Bad target URL"
    case TargetNotAbsolute => "Target URL should be absolute"
    case NotOurPage => "Target URL should be one of our pages"
    case NotAPost => "You can only mention posts"
  }

  /** The number of bytes a character takes in UTF-8. */
  function Utf8Len(c: char): (n: nat)
    ensures 1 <= n <= 4
    ensures n == 1 <==> (c as int) < 0x80
  {
    if (c as int) < 0x80 then 1 else if (c as int) < 0x800 then 2 else if (c as int) < 0x1_0000 then 3 else 4
  }

  /** The number of bytes the text takes in UTF-8. */
  function Utf8Size(s: string): nat {
    if |s| == 0 then 0 else Utf8Len(s[0]) + Utf8Size(s[1..])
  }

  /** The size of a non-empty prefix is its first character's plus that of the rest. */
  lemma Utf8SizePrefixes(s: string)
    requires |s| > 0
    ensures Utf8Size(s[..0]) == 0
    ensures forall k :: 1 <= k <= |s| ==> Utf8Size(s[..k]) == Utf8Len(s[0]) + Utf8Size(s[1..][..k - 1])
  {
    assert s[..0] == [];
    forall k | 1 <= k <= |s| ensures Utf8Size(s[..k]) == Utf8Len(s[0]) + Utf8Size(s[1..][..k - 1]) {
      assert s[..k][0] == s[0];
      assert s[..k][1..] == s[1..][..k - 1];
    }
  }

  /** `str::get(n..)`: the text after its first `n` bytes, or nothing when the text is shorter
      or byte `n` falls inside a character. It succeeds exactly when some prefix of the text
      takes `n` bytes, and then drops that prefix. */
  function DropBytes(s: string, n: nat): (r: Option<string>)
    ensures r.Some? ==> |r.value| <= |s| && r.value == s[|s| - |r.value|..]
    ensures r.Some? ==> Utf8Size(s[..|s| - |r.value|]) == n
    ensures r.Some? <==> exists k :: 0 <= k <= |s| && Utf8Size(s[..k]) == n
    decreases |s|
  {
    if n == 0 then
      assert s[..0] == [];
      Some(s)
    else if |s| == 0 then
      assert s[..0] == [];
      None
    else if Utf8Len(s[0]) > n then
      Utf8SizePrefixes(s);
      None
    else
      var r := DropBytes(s[1..], n - Utf8Len(s[0]));
      assert r.Some? ==> s[1..][|s| - 1 - |r.value|..] == s[|s| - |r.value|..];
      Utf8SizePrefixes(s);
      assert (exists k :: 0 <= k <= |s| && Utf8Size(s[..k]) == n) ==> r.Some? by {
        if exists k :: 0 <= k <= |s| && Utf8Size(s[..k]) == n {
          var k :| 0 <= k <= |s| && Utf8Size(s[..k]) == n;
          assert Utf8Size(s[1..][..k - 1]) == n - Utf8Len(s[0]);
        }
      }
      r
  }

  predicate Ascii(s: string) {
    forall i :: 0 <= i < |s| ==> (s[i] as int) < 0x80
  }

  /** On ASCII text bytes are characters. */
  lemma {:induction false} DropBytesAscii(s: string, n: nat)
    requires Ascii(s[..if n <= |s| then n else |s|])
    ensures DropBytes(s, n) == if n <= |s| then Some(s[n..]) else None
    decreases |s|
  {
    if n > 0 && |s| > 0 {
      assert (s[0] as int) < 0x80 by {
        assert s[..if n <= |s| then n else |s|][0] == s[0];
      }
      var m := if n - 1 <= |s| - 1 then n - 1 else |s| - 1;
      assert s[1..][..m] == s[..if n <= |s| then n else |s|][1..];
      DropBytesAscii(s[1..], n - 1);
      if n <= |s| {
        assert s[1..][n - 1..] == s[n..];
      }
    }
  }

  /** The length of "/post/". */
  const PostPrefixLength: nat := 6

  /** The mentioned post: the target's path with its trailing slashes, then its trailing
      `.md` suffixes removed, less its first six bytes. */
  function PostPath(path: string): Option<string> {
    DropBytes(TrimSuffixAll(TrimTrailingChar(path, '/'), ".md"), PostPrefixLength)
  }

  /** A URL that parsed and is absolute. */
  predicate Absolute(u: Option<Url>) {
    u.Some? && !u.value.cannotBeABase
  }

  /** The checks in order; on success, the source URL and the mentioned post. Each refusal
      happens exactly when every earlier check passed and its own fails. */
  function Validate(parse: string -> Option<Url>, origin: Url, source: string, target: string)
    : (r: Result<(Url, string), Refusal>)
    ensures r == Err(BadSource) <==> parse(source).None?
    ensures r == Err(SourceNotAbsolute) <==> parse(source).Some? && parse(source).value.cannotBeABase
    ensures r == Err(BadTarget) <==> Absolute(parse(source)) && parse(target).None?
    ensures r == Err(TargetNotAbsolute) <==>
      Absolute(parse(source)) && parse(target).Some? && parse(target).value.cannotBeABase
    ensures r == Err(NotOurPage) <==>
      Absolute(parse(source)) && Absolute(parse(target)) && parse(target).value.host != origin.host
    ensures r.Ok? <==>
      Absolute(parse(source)) && Absolute(parse(target)) && parse(target).value.host == origin.host &&
      PostPath(parse(target).value.path).Some?
    ensures r.Ok? ==>
      parse(source) == Some(r.value.0) && !r.value.0.cannotBeABase &&
      parse(target).Some? && !parse(target).value.cannotBeABase &&
      parse(target).value.host == origin.host &&
      PostPath(parse(target).value.path) == Some(r.value.1)
    ensures r == Err(NotAPost) <==>
      parse(source).Some? && !parse(source).value.cannotBeABase &&
      parse(target).Some? && !parse(target).value.cannotBeABase &&
      parse(target).value.host == origin.host &&
      PostPath(parse(target).value.path).None?
  {
    match parse(source)
    case None => Err(BadSource)
    case Some(src) =>
      if src.cannotBeABase then Err(SourceNotAbsolute)
      else match parse(target)
        case None => Err(BadTarget)
        case Some(tgt) =>
          if tgt.cannotBeABase then Err(TargetNotAbsolute)
          else if tgt.host != origin.host then Err(NotOurPage)
          else match PostPath(tgt.path)
            case None => Err(NotAPost)
            case Some(p) => Ok((src, p))
  }

  /** The address a post is served at, with or without a `.md` suffix and a trailing slash,
      gives back the post's key. */
  lemma ServedPathRoundTrip(key: string, md: bool, slash: bool)
    requires |key| > 0 && !EndsWith(key, "/") && !EndsWith(key, ".md")
    ensures PostPath("/post/" + key + (if md then ".md" else "") + (if slash then "/" else "")) == Some(key)
  {
    var base := "/post/" + key;
    var withMd := base + (if md then ".md" else "");
    var path := withMd + (if slash then "/" else "");
    assert withMd[|withMd| - 1] != '/' by {
      if md {
        assert withMd[|withMd| - 1] == 'd';
      } else {
        assert key[|key| - 1..] == [key[|key| - 1]];
        assert withMd[|withMd| - 1] == key[|key| - 1];
      }
    }
    if slash {
      TrimTrailingCharOnce(withMd, '/');
    } else {
      assert path == withMd;
    }
    BaseNotMd(key);
    if md {
      TrimSuffixAllOnce(base, ".md");
    } else {
      assert withMd == base;
    }
    assert base[..PostPrefixLength] == "/post/";
    DropBytesAscii(base, PostPrefixLength);
    assert base[PostPrefixLength..] == key;
  }

  /** A key that does not end in `.md` gives a served path that does not either. */
  lemma BaseNotMd(key: string)
    requires |key| > 0 && !EndsWith(key, ".md")
    ensures !EndsWith("/post/" + key, ".md")
  {
    var base := "/post/" + key;
    if |key| >= 3 {
      assert base[|base| - 3..] == key[|key| - 3..];
    } else if |key| == 2 {
      assert base[|base| - 3..][0] == '/';
    } else {
      assert base[|base| - 3..][0] == 't';
    }
  }

  /** The `/post/` prefix itself is never checked: any six ASCII characters in its place
      select the same post. */
  lemma PrefixNotChecked(prefix: string, key: string)
    requires |prefix| == PostPrefixLength && Ascii(prefix)
    requires |key| > 0 && key[|key| - 1] != '/' && !EndsWith(prefix + key, ".md")
    ensures PostPath(prefix + key) == Some(key)
  {
    var s := prefix + key;
    assert s[|s| - 1] == key[|key| - 1];
    assert s[..PostPrefixLength] == prefix;
    DropBytesAscii(s, PostPrefixLength);
    assert s[PostPrefixLength..] == key;
  }

  /** A target path shorter than six bytes once trimmed names no post. */
  lemma ShortPathRefused(path: string)
    requires Ascii(path) && |path| < PostPrefixLength
    ensures PostPath(path).None?
  {
    var t := TrimSuffixAll(TrimTrailingChar(path, '/'), ".md");
    assert t == path[..|t|];
    assert Ascii(t[..|t|]);
    DropBytesAscii(t, PostPrefixLength);
  }
}

=== FILE: wrappers.dfy ===
/** Failure-carrying datatypes and small helpers shared by every module of the model. */
module Wrappers {

  /** An optional value: the model's stand-in for Rust's `Option`. */
  datatype Option<+T> = None | Some(value: T) {

    /** The wrapped value, or `default` when there is none. */
    function GetOr(default: T): T {
      match this
      case Some(v) => v
      case None => default
    }
  }

  /** A value or an error: the model's stand-in for Rust's `Result`. */
  datatype Result<+R, +E> = Ok(value: R) | Err(error: E) {

    /** Drops the error, as Rust's `Result::ok` does. */
    function ToOption(): Option<R> {
      match this
      case Ok(v) => Some(v)
      case Err(_) => None
    }
  }

  /** The three outcomes of a three-way comparison (`std::cmp::Ordering`). */
  datatype Ordering = Less | Equal | Greater {

    /** The outcome of the comparison with its arguments swapped. */
    function Flip(): Ordering {
      match this
      case Less => Greater
      case Equal => Equal
      case Greater => Less
    }
  }

  /** Three-way comparison of integers, as `Ord::cmp` on dates and numbers. */
  function CompareInt(a: int, b: int): (r: Ordering)
    ensures r == Less <==> a < b
    ensures r == Equal <==> a == b
    ensures r == Greater <==> a > b
  {
    if a < b then Less else if a == b then Equal else Greater
  }

  /** `k` paired with each of `vs`, in order. */
  function WithKey<K, V>(k: K, vs: seq<V>): (r: seq<(K, V)>)
    ensures |r| == |vs|
    ensures forall i :: 0 <= i < |vs| ==> r[i] == (k, vs[i])
  {
    if |vs| == 0 then [] else [(k, vs[0])] + WithKey(k, vs[1..])
  }
}
